=== FILE: README.md ===
# Dzus panel template, modelled in Dafny

`make_panel.py` draws the template for a flight-simulator instrument panel
as a DXF file. The panel is built from Dzus units, one unit being 3/8". The
script has two parts.

- **Plate.** An aluminium backing plate drawn as a plain rectangle. It has a
  4 mm hole for every Dzus fastener.
- **Fascia.** An acrylic front panel 1/32" smaller on every side, with
  rounded corners. Around every fastener its edge is broken by a rebate: a
  lead-in fillet, a half-circle pocket of radius 1/4", and a lead-out fillet.

The script also draws construction lines on separate layers:

- a vertical guide at the x of each side's hole centres, from 10 mm below
  to 10 mm above the plate;
- a horizontal line at the height of every hole, from 10 mm outside the
  plate to its middle, which reaches the hole's centre unless the plate is
  narrower than 3/8";
- the two centre lines of the fascia;
- the centre line for the panel name.

This project models that geometry exactly. The panel parameters become a
`PanelSpec`: width in inches, height in units, and the left and right
fastener positions. Every coordinate is an exact `real` in millimetres, and
every primitive is a `Line`, an `Arc` or a `Circle` tagged with its layer.
`Panel.Generate` returns the whole drawing in the order the script emits it.
The proofs cover the following.

- **Continuity.** The plate outline is one closed contour. The fascia
  outline and the two side walks form one closed loop, with every arc
  entered at whichever end the walk arrives at.
- **The rebate walk.** Each rebate is a line, a quarter fillet, a line, a
  half-circle pocket, a line and a quarter fillet. The pocket is centred
  on the plate hole it clears.
- **Mirror symmetry.** With the same fasteners on both sides, the right
  side is the mirror image of the left in x ↦ right − x, arc angles
  included. The script writes the right side out separately, and the
  model does too.
- **Clearance.** A side walk never runs downwards exactly when that side's
  fastener positions are well placed.
- **Counts and scenarios.** The number of primitives on each layer, the
  script's own default panel, and a panel without fasteners.

Modules follow the structure of the script:

| module | file | what it holds |
|---|---|---|
| `Geometry` | geometry.dfy | points, primitives, layers, `intomm`, walking a chain of primitives, mirror images |
| `Dimensions` | dimensions.dfy | the panel parameters, plate frame, hole heights, vertical guides |
| `PlateLayout` | plate.dfy | the plate outline, holes and their construction lines |
| `FasciaContour` | fascia.dfy | the fascia corners and edges, centre lines, left and right rebate walks |
| `Clearance` | clearance.dfy | when a side walk climbs steadily, in units and in millimetres |
| `Panel` | panel.dfy | the whole drawing, the decal centre line, per-layer counts, alignment of plate and fascia |

The functions that model the script's drawing steps:

| script lines | Dafny function | what it draws |
|---|---|---|
| make_panel.py:47-48 | `Geometry.InToMm` | `intomm`, inches to millimetres |
| make_panel.py:65-69 | `Dimensions.FrameOf`, `Dimensions.TopOf` | the plate's right and top edges |
| make_panel.py:75-78 | `PlateLayout.OutlineLines` | the plate rectangle |
| make_panel.py:81-82, 88-89 | `Dimensions.GuideIfAny`, `Dimensions.Guide` | a side's vertical guide |
| make_panel.py:84-86, 91-93 | `PlateLayout.LeftHoles`, `PlateLayout.RightHoles` (via `LeftPair`, `RightPair`, `Dimensions.HoleY`) | per fastener a construction line and a hole |
| make_panel.py:72-93 | `PlateLayout.Draw` | the plate section |
| make_panel.py:101-119 | `FasciaContour.BottomLeft`, `BottomEdge`, `BottomRight`, `TopLeft`, `TopEdge`, `TopRight`, `OutlinePrims` | the fascia corners and edges |
| make_panel.py:122-125 | `FasciaContour.CentrePrims` | the fascia centre lines |
| make_panel.py:147-161 | `FasciaContour.LeftRebate` | one left rebate |
| make_panel.py:183-197 | `FasciaContour.RightRebate` | one right rebate |
| make_panel.py:140-166 | `FasciaContour.LeftSide` (via `LeftStep`, `ExitY`) | the left walk with its construction lines |
| make_panel.py:176-202 | `FasciaContour.RightSide` (via `RightStep`, `ExitY`) | the right walk with its construction lines |
| make_panel.py:96-202 | `FasciaContour.Draw` | the fascia section |
| make_panel.py:208 | `Panel.DecalLine` | the centre line for the panel name |
| make_panel.py:65-208 | `Panel.Generate` | the whole drawing, in emission order |

## Model

| member | source | states |
|---|---|---|
| Geometry.InToMmRoundTrip | make_panel.py:47-48 | inch to millimetre conversion is exact and invertible, additive, and order-preserving |
| Dimensions.TopOf | make_panel.py:66 | a plate h units high is 3h/8 inches high |
| Dimensions.FrameOf | make_panel.py:66-69 | the plate's right edge, converted back, is the width in inches; its top is the height of the given units |
| Dimensions.HoleY | make_panel.py:85-86 | a fastener at position p has its centre at 9.525 p + 4.7625 mm |
| Dimensions.HoleYMiddle | make_panel.py:85-86 | that centre is in the middle of unit p, (p + 1/2) × 3/8" up, so consecutive positions are exactly one unit apart |
| Dimensions.GuideSpan | make_panel.py:82-86 | a fastener centre lies between a guide's ends, 10 mm below and above the plate, exactly when its position is at least −1 and its height is at most top + 10 mm |
| PlateLayout.OutlineChained | make_panel.py:75-78 | the plate outline is the rectangle (0,0)–(right, top), wound bottom, right, top, left, each line starting where the previous one ends |
| PlateLayout.OutlineClosed | make_panel.py:75-78 | the plate layer of the outline is exactly those four lines and they close into one loop through the origin |
| PlateLayout.HolesPerLayer | make_panel.py:84-93 | per fastener a side adds one primitive on `plate` and one on `plate_construction`, and nothing elsewhere |
| PlateLayout.LeftPlateHoles | make_panel.py:81-86 | the left holes are exactly one radius-2 circle per listed position, in list order, 3/16" in from the left edge |
| PlateLayout.RightPlateHoles | make_panel.py:88-93 | the right holes are exactly one radius-2 circle per listed position, in list order, 3/16" in from the right edge |
| PlateLayout.LeftHoleLines | make_panel.py:84-86 | the left horizontal construction lines are one per hole, at its height, from 10 mm left of the plate to the middle of the plate |
| PlateLayout.RightHoleLines | make_panel.py:91-93 | the right horizontal construction lines are one per hole, at its height, from the middle of the plate to 10 mm right of the plate |
| PlateLayout.Crosshairs | make_panel.py:81-93 | each hole's centre has the x of its side's vertical guide and lies within the guide's span exactly when its position is at least −1 and it is at most 10 mm above the top; it is at the height of its own horizontal line, which starts on the outer side of the centre and reaches it exactly when the plate is at least 3/8" wide |
| PlateLayout.PlateGuides | make_panel.py:81-93 | a side's vertical guide is drawn on `plate_construction` if and only if that side has fasteners |
| PlateLayout.PlateMirror | make_panel.py:81-93 | with the same positions, the right plate side is the left side's mirror image, entity by entity and layer by layer |
| FasciaContour.BottomChain | make_panel.py:101-109 | bottom-left corner, bottom edge and bottom-right corner join the start of the left walk to the start of the right walk; the bottom edge runs level 1/32" above the plate's bottom |
| FasciaContour.TopChain | make_panel.py:111-119 | top-right corner, top edge and top-left corner join the end of the right walk to the end of the left walk; the top edge runs level 1/32" below the plate's top |
| FasciaContour.OutlineMirror | make_panel.py:101-119 | the right corners mirror the left ones, the straight edges are their own mirror images, and so are the sides without fasteners |
| FasciaContour.LeftRebateChains | make_panel.py:147-161 | a rebate is six primitives (line, 90° fillet, line, 180° pocket, line, 90° fillet) that chain from the walk's current height to 9/32" above the fastener centre |
| FasciaContour.LeftSideOnLayer | make_panel.py:136-166 | per fastener the left side adds its construction line and its rebate, then ends with the closing line to the top-left corner |
| FasciaContour.RightSideOnLayer | make_panel.py:172-202 | per fastener the right side adds its construction line and its rebate, then ends with the closing line to the top-right corner |
| FasciaContour.LeftSideChains | make_panel.py:133-166 | the left walk runs without a gap from its start on the left edge to the top-left corner |
| FasciaContour.RightSideChains | make_panel.py:169-202 | the right walk runs without a gap from its start on the right edge to the top-right corner |
| FasciaContour.LeftPockets | make_panel.py:140-164 | the pocket of the i-th left rebate is the half circle of radius 1/4" about the i-th fastener centre, bulging into the fascia |
| FasciaContour.RightPockets | make_panel.py:176-200 | the pocket of the i-th right rebate is the mirrored half circle about the i-th right fastener centre |
| FasciaContour.RightRebateMirror | make_panel.py:147-197 | the right rebate is exactly the left rebate reflected, arc angles and all |
| FasciaContour.StepMirror | make_panel.py:140-197 | one fastener's construction line and rebate on the right mirror those on the left |
| FasciaContour.RightWalkMirror | make_panel.py:133-202 | the right walk is exactly the mirror image of the left walk for the same positions |
| FasciaContour.WalkSweepsMirror | make_panel.py:147-197 | conversely the left walk is the mirror image of the right one; lines and arcs sit at the same places in both, and every right arc sweeps as far counter-clockwise as the left arc it faces |
| FasciaContour.RightSideMirror | make_panel.py:133-202 | the whole right side, construction lines included, mirrors the left side |
| FasciaContour.FasciaSidesMirror | make_panel.py:133-202 | with guides included, the right fascia side mirrors the left |
| FasciaContour.FasciaGuides | make_panel.py:136-174 | a side's vertical guide is drawn on `fascia_construction` if and only if that side has fasteners |
| FasciaContour.SidesOnLayer | make_panel.py:136-202 | a fascia side puts its guide (when present) on `fascia_construction`; everything else comes from its walk |
| FasciaContour.DrawOnLayer | make_panel.py:101-202 | layer by layer, the fascia section is the outline, the centre lines, then the left and right sides |
| FasciaContour.FasciaPrims | make_panel.py:101-202 | the fascia primitives are exactly the six outline pieces and the two side walks |
| FasciaContour.LoopClosed | make_panel.py:101-202 | corners, edges and both walks form one closed loop through the start of the left walk, for any positions |
| FasciaContour.LoopIsFascia | make_panel.py:101-202 | that loop uses every fascia primitive of the drawing exactly once |
| Clearance.RebateRises | make_panel.py:147-149 | within a rebate only the lead-in line can run downwards, and it does exactly when the walk is already above the rebate's entry |
| Clearance.LeftSideRises | make_panel.py:133-166 | a left walk never runs downwards exactly when every rebate starts no lower than the previous one ended and the top corner is above the last |
| Clearance.ClearIffWellPlaced | make_panel.py:140-164 | the millimetre clearance condition from the bottom corner is exactly: first position ≥ 1, positions ≥ 2 apart, last ≤ height − 2 |
| Clearance.LeftWalkRises | make_panel.py:133-166 | the left walk never runs downwards if and only if the left positions are well placed |
| Clearance.RightWalkRises | make_panel.py:169-202 | the right walk never runs downwards if and only if the right positions are well placed |
| Panel.GenerateOnLayer | make_panel.py:65-208 | on each layer the drawing is the plate section, then the fascia section, then the decal centre line |
| Panel.PlateCounts | make_panel.py:72-93 | the plate section has 4 + left + right primitives on `plate` and guides + left + right on `plate_construction` |
| Panel.SideCounts | make_panel.py:140-202 | a side walk holds 6 fascia primitives per fastener plus the closing line, and one construction line per fastener |
| Panel.FasciaCounts | make_panel.py:96-202 | the fascia section has 6 outline pieces and both walks on `fascia`, and the centre lines, guides and per-fastener lines on `fascia_construction` |
| Panel.LayerCounts | make_panel.py:55-208 | how many primitives each of the six layers gets, with nothing on `decal` |
| Panel.PlateLayer | make_panel.py:75-93 | the `plate` layer of the plate section is the outline, then the left holes, then the right holes |
| Panel.PlateHoles | make_panel.py:75-208 | the same holds of the whole drawing: nothing outside the plate section is drawn on `plate` |
| Panel.PocketsOverHoles | make_panel.py:84-197 | each plate hole is concentric with the pocket of the fascia rebate cut for it, and the pocket's radius exceeds the hole's |
| Panel.SideConstruction | make_panel.py:84-181 | a side's per-fastener construction lines on the fascia are the same lines as on the plate |
| Panel.ConstructionAgrees | make_panel.py:81-181 | the fascia and the plate carry the same guide and construction lines for each side |
| Panel.CentredLines | make_panel.py:122-208 | the two centre lines are bisected by the plate centre; the decal line is horizontal 13/64" below the top and bisected by the vertical centre line; each is its own mirror image |
| Panel.BareFascia | make_panel.py:96-202 | with no fasteners the fascia layer is the six outline pieces followed by one straight closing line per side |
| Panel.NoFasteners | make_panel.py:96-202 | with no fasteners the fascia is four quarter-circle corners of radius 1/32" and four straight lines, and the plate has no holes |
| Panel.DefaultPanel | make_panel.py:34-41 | the script's own panel: a 146.05 × 85.725 mm plate, holes at 14.2875 and 71.4375 mm, 13-primitive walks that never run downwards |

## Left out

- The `ezdxf` drawing object, its model space, the creation of the six layers with their line types and line weights (lines 27, 51-62), and writing the file (line 212). These are I/O. The model keeps only the layer names, as the `Layer` datatype.
- Parameters are fixed at module level in the script (lines 34-44). The model takes them as a `PanelSpec` argument, and `DefaultSpec` holds the script's values. The output file name is not modelled.
- Floating point. Coordinates are exact reals. The script's binary floats round values such as 25.4 × 3/16, so its endpoints coincide only up to rounding.
- DXF arcs at arbitrary angles. The `Angle` type admits only 0, 90, 180 and 270, which is every angle the script uses. This lets arc endpoints be computed exactly.
- Input validation. The script checks neither the width, the height nor the fastener positions. The model therefore has no error path either, and every operation accepts any `PanelSpec`. Heights and fastener positions are whole numbers of units in the model (`int`), as the script's comments treat them, though the script would compute with fractional values too. `WellPlaced`'s spacing of at least 2 relies on that: in millimetres a spacing of 1.5 units would already suffice. What well-placed positions buy is stated as the `WellPlaced` predicate with the if-and-only-if lemmas in `Clearance`. Steady climbing needs a first position of at least 1, a spacing of at least 2, and a last position at most height − 2, because a rebate takes 9/32" above and below its centre, and a fillet sits 2/32" from each corner.
- `last_x` is reassigned only in a commented-out line (lines 163 and 199), so it stays at the edge x. The model carries only `last_y` and uses the constant edge x.
- PlateLayout.PlateGuides and FasciaContour.FasciaGuides state the guide if-and-only-if for each side's own section only. On a panel exactly 3/8" wide the left and right guides are the same line, so the statement for the whole drawing would be false there.

=== FILE: clearance.dfy ===
/** When the fastener positions of a side leave room for every rebate, the
    side walk climbs steadily from the bottom corner to the top corner: the
    script assumes positions start at 1 ("1 is first useful hole") and are
    spaced apart, but never checks it. */
module Clearance {
  import opened Geometry
  import opened Dimensions
  import opened FasciaContour

  /** No line of `ps` runs downwards. */
  predicate Rises(ps: seq<Prim>)
  {
    forall i :: 0 <= i < |ps| && ps[i].Line? ==> ps[i].start.y <= ps[i].end.y
  }

  /** Fastener positions that leave room for every rebate: the first is at
      least 1, each is at least 2 above the one before it in the list, and
      the last is at least 2 below the top; a side without fasteners needs a
      panel at least one unit high. */
  predicate WellPlaced(m: seq<int>, h: int)
  {
    if |m| == 0 then 1 <= h
    else 1 <= m[0] && Spaced(m) && m[|m| - 1] <= h - 2
  }

  predicate Spaced(m: seq<int>)
  {
    forall i :: 0 <= i < |m| - 1 ==> m[i] + 2 <= m[i + 1]
  }

  /** The same condition in millimetres, walked from height `lastY`: each
      rebate begins no lower than the walk has reached, and the closing line
      climbs to the top corner. */
  predicate ClearFrom(lastY: real, m: seq<int>, top: real)
    decreases |m|
  {
    if |m| == 0 then lastY <= top - InToMm(CornerCentre)
    else lastY <= HoleY(m[0]) - InToMm(FilletOffset) && ClearFrom(ExitY(HoleY(m[0])), m[1..], top)
  }

  lemma RisesAppend(a: seq<Prim>, b: seq<Prim>)
    ensures Rises(a + b) <==> Rises(a) && Rises(b)
  {
    if Rises(a) && Rises(b) {
      forall i | 0 <= i < |a + b| && (a + b)[i].Line?
        ensures (a + b)[i].start.y <= (a + b)[i].end.y
      {
        if i >= |a| {
          assert (a + b)[i] == b[i - |a|];
        }
      }
    }
    if Rises(a + b) {
      forall i | 0 <= i < |a| && a[i].Line?
        ensures a[i].start.y <= a[i].end.y
      {
        assert (a + b)[i] == a[i];
      }
      forall i | 0 <= i < |b| && b[i].Line?
        ensures b[i].start.y <= b[i].end.y
      {
        assert (a + b)[|a| + i] == b[i];
      }
    }
  }

  /** Inside a rebate only the lead-in line can run downwards; it does
      exactly when the walk is already above the rebate's entry point. */
  lemma RebateRises(lastY: real, cy: real)
    ensures Rises(LeftRebate(lastY, cy)) <==> lastY <= cy - InToMm(FilletOffset)
  {
    var r := LeftRebate(lastY, cy);
    assert r[0].Line? && r[0].start.y == lastY && r[0].end.y == cy - InToMm(FilletOffset);
  }

  /** A left side walk never runs downwards exactly when its fasteners are
      clear of each other and of the corners, measured in millimetres. */
  lemma {:induction false} LeftSideRises(m: seq<int>, lastY: real, f: Frame)
    ensures Rises(OnLayer(LeftSide(m, lastY, f), Fascia)) <==> ClearFrom(lastY, m, f.top)
    decreases |m|
  {
    LeftSideOnLayer(m, lastY, f, Fascia);
    if |m| == 0 {
      var ps := OnLayer(LeftSide(m, lastY, f), Fascia);
      assert ps[0].start.y == lastY && ps[0].end.y == f.top - InToMm(CornerCentre);
    } else {
      var cy := HoleY(m[0]);
      var rest := OnLayer(LeftSide(m[1..], ExitY(cy), f), Fascia);
      assert OnLayer(LeftSide(m, lastY, f), Fascia) == LeftRebate(lastY, cy) + rest;
      RisesAppend(LeftRebate(lastY, cy), rest);
      RebateRises(lastY, cy);
      LeftSideRises(m[1..], ExitY(cy), f);
    }
  }

  // The millimetre conditions in whole units.

  lemma SpacedCons(m: seq<int>)
    requires |m| > 1
    ensures Spaced(m) <==> m[0] + 2 <= m[1] && Spaced(m[1..])
  {
    var t := m[1..];
    if m[0] + 2 <= m[1] && Spaced(t) {
      forall i | 0 <= i < |m| - 1
        ensures m[i] + 2 <= m[i + 1]
      {
        if i > 0 {
          assert m[i] == t[i - 1] && m[i + 1] == t[i];
        }
      }
    }
    if Spaced(m) {
      forall i | 0 <= i < |t| - 1
        ensures t[i] + 2 <= t[i + 1]
      {
        assert t[i] == m[i + 1] && t[i + 1] == m[i + 2];
      }
    }
  }

  lemma GapIff(a: int, b: int)
    ensures ExitY(HoleY(a)) <= HoleY(b) - InToMm(FilletOffset) <==> a + 2 <= b
  {
    var d := b - a;
    assert HoleY(b) - InToMm(FilletOffset) - ExitY(HoleY(a)) == 9.525 * (d as real) - 14.2875;
    if d <= 1 {
      assert (d as real) <= 1.0;
    }
  }

  lemma FirstIff(p: int)
    ensures WalkStartY <= HoleY(p) - InToMm(FilletOffset) <==> 1 <= p
  {
    assert HoleY(p) - InToMm(FilletOffset) - WalkStartY == 9.525 * (p as real) - 3.96875;
    if p <= 0 {
      assert (p as real) <= 0.0;
    }
  }

  lemma LastIff(p: int, h: int)
    ensures ExitY(HoleY(p)) <= TopOf(h) - InToMm(CornerCentre) <==> p <= h - 2
  {
    var d := h - p;
    assert TopOf(h) - InToMm(CornerCentre) - ExitY(HoleY(p)) == 9.525 * (d as real) - 13.49375;
    if d <= 1 {
      assert (d as real) <= 1.0;
    }
  }

  lemma EmptyIff(h: int)
    ensures WalkStartY <= TopOf(h) - InToMm(CornerCentre) <==> 1 <= h
  {
    assert TopOf(h) - InToMm(CornerCentre) - WalkStartY == 9.525 * (h as real) - 3.175;
    if h <= 0 {
      assert (h as real) <= 0.0;
    }
  }

  /** Walking on from the rebate of a fastener at position `a`, the rest of
      the side is clear exactly when the remaining positions are spaced and
      the last leaves room for the top corner. */
  lemma {:induction false} ClearAfter(a: int, m: seq<int>, h: int)
    ensures ClearFrom(ExitY(HoleY(a)), m, TopOf(h))
        <==> if |m| == 0 then a <= h - 2 else a + 2 <= m[0] && Spaced(m) && m[|m| - 1] <= h - 2
    decreases |m|
  {
    if |m| == 0 {
      LastIff(a, h);
    } else {
      GapIff(a, m[0]);
      ClearAfter(m[0], m[1..], h);
      if |m| > 1 {
        SpacedCons(m);
        assert m[1..][|m| - 2] == m[|m| - 1];
      }
    }
  }

  /** The millimetre condition from the bottom corner is exactly the unit
      condition on the positions. */
  lemma ClearIffWellPlaced(m: seq<int>, h: int)
    ensures ClearFrom(WalkStartY, m, TopOf(h)) <==> WellPlaced(m, h)
  {
    if |m| == 0 {
      EmptyIff(h);
    } else {
      FirstIff(m[0]);
      ClearAfter(m[0], m[1..], h);
      if |m| > 1 {
        SpacedCons(m);
        assert m[1..][|m| - 2] == m[|m| - 1];
      }
    }
  }

  /** Every line of the left side walk runs upwards or level if and only if
      the left positions start at 1 or above, are at least 2 apart in list
      order, and end at least 2 below the top. */
  lemma LeftWalkRises(spec: PanelSpec)
    ensures Rises(LeftWalk(spec)) <==> WellPlaced(spec.leftMount, spec.heightUnits)
  {
    LeftSideRises(spec.leftMount, WalkStartY, FrameOf(spec));
    ClearIffWellPlaced(spec.leftMount, spec.heightUnits);
  }

  lemma MirrorRises(ps: seq<Prim>, width: real)
    ensures Rises(MirrorSeq(ps, width)) <==> Rises(ps)
  {
    var qs := MirrorSeq(ps, width);
    assert forall i :: 0 <= i < |ps| ==> qs[i] == MirrorPrim(ps[i], width);
  }

  /** The same for the right side walk and the right positions. */
  lemma RightWalkRises(spec: PanelSpec)
    ensures Rises(RightWalk(spec)) <==> WellPlaced(spec.rightMount, spec.heightUnits)
  {
    var f := FrameOf(spec);
    RightWalkMirror(spec.rightMount, WalkStartY, f);
    MirrorRises(OnLayer(LeftSide(spec.rightMount, WalkStartY, f), Fascia), f.right);
    LeftSideRises(spec.rightMount, WalkStartY, f);
    ClearIffWellPlaced(spec.rightMount, spec.heightUnits);
  }
}

=== FILE: dimensions.dfy ===
/** The panel parameters and the dimensions both the plate and the fascia are
    drawn from. */
module Dimensions {
  import opened Geometry

  /** Panel width in inches, height in Dzus units (one unit is 3/8"), and the
      unit positions of the fasteners on each side, bottom first. */
  datatype PanelSpec = PanelSpec(
    widthInches: real,
    heightUnits: int,
    leftMount: seq<int>,
    rightMount: seq<int>)

  /** The parameters the script is written with. */
  const DefaultSpec: PanelSpec := PanelSpec(5.75, 9, [1, 7], [1, 7])

  /** One Dzus unit, in inches. */
  const UnitInches: real := 3.0 / 8.0

  /** Distance of a fastener centre from the plate edge, and half a unit,
      in inches. */
  const HoleInset: real := 3.0 / 16.0

  /** Radius of the drilled fastener hole in the plate, in millimetres. */
  const HoleRadius: real := 2.0

  /** How far construction lines reach past the plate, in millimetres. */
  const Overhang: real := 10.0

  /** The plate's left and bottom edges lie on the axes. */
  const Left: real := 0.0
  const Bottom: real := 0.0

  /** Right and top edges of the plate, in millimetres. */
  datatype Frame = Frame(right: real, top: real)

  /** Height of a plate `h` units high, in millimetres. */
  function TopOf(h: int): (top: real)
    ensures MmToIn(top) * 8.0 == 3.0 * h as real
  {
    InToMm(h as real * UnitInches)
  }

  function FrameOf(spec: PanelSpec): (f: Frame)
    ensures MmToIn(f.right) == spec.widthInches
    ensures f.top == TopOf(spec.heightUnits)
  {
    Frame(InToMm(spec.widthInches), TopOf(spec.heightUnits))
  }

  /** Height of the centre of a fastener at unit position `pos`: half a unit
      above the bottom of its unit. */
  function HoleY(pos: int): (y: real)
    ensures y == 9.525 * pos as real + 4.7625
  {
    InToMm(pos as real * UnitInches + HoleInset)
  }

  /** A fastener centre sits in the middle of its unit, so consecutive
      positions are one unit apart. */
  lemma HoleYMiddle(pos: int)
    ensures MmToIn(HoleY(pos)) == (pos as real + 0.5) * UnitInches
    ensures HoleY(pos + 1) - HoleY(pos) == InToMm(UnitInches)
  {
  }

  /** A vertical construction line at `x` reaching past the top and bottom
      of the plate. */
  function Guide(x: real, f: Frame): Prim
  {
    Line(Point(x, Bottom - Overhang), Point(x, f.top + Overhang))
  }

  /** A fastener centre lies within the vertical span of a guide exactly
      when its position is at least -1 and it is no higher than the guide's
      top end: position -2 is already more than 10 mm below the plate. */
  lemma GuideSpan(pos: int, x: real, f: Frame)
    ensures Guide(x, f).start.y <= HoleY(pos) <= Guide(x, f).end.y
        <==> -1 <= pos && HoleY(pos) <= f.top + Overhang
  {
  }

  /** The guide drawn when a side has fasteners. */
  function GuideIfAny(m: seq<int>, x: real, f: Frame): seq<Prim>
  {
    if |m| > 0 then [Guide(x, f)] else []
  }
}

=== FILE: fascia.dfy ===
/** The front fascia: a rectangle inset 1/32" from the plate with rounded
    corners, whose left and right edges are broken by a rebate around every
    fastener. */
module FasciaContour {
  import opened Geometry
  import opened Dimensions

  /** The fascia edge lies 1/32" inside the plate edge (inches). */
  const Inset: real := 1.0 / 32.0
  /** Corner and fillet centres lie 2/32" inside the plate edge (inches). */
  const CornerCentre: real := 2.0 / 32.0
  /** Radius of the rounded corners and of the lead-in and lead-out fillets
      (inches). */
  const CornerRadius: real := 1.0 / 32.0
  /** Radius of the pocket: the 3/16" fastener radius plus 1/16" clearance
      (inches). */
  const PocketRadius: real := 3.0 / 16.0 + 1.0 / 16.0
  /** Offset of a fillet centre from the fastener centre, and half the
      height of the edge a rebate takes out (inches). */
  const FilletOffset: real := PocketRadius + CornerRadius

  /** The x of the fascia's left edge, along which the left walk runs. */
  const LeftEdgeX: real := Left + InToMm(Inset)

  function RightEdgeX(f: Frame): real
  {
    f.right - InToMm(Inset)
  }

  // The outline corners and the straight top and bottom edges.

  function BottomLeft(f: Frame): Prim
  {
    Arc(Point(InToMm(CornerCentre), InToMm(CornerCentre)), InToMm(CornerRadius), 180, 270)
  }

  function BottomEdge(f: Frame): Prim
  {
    Line(Point(Left + InToMm(CornerCentre), Bottom + InToMm(Inset)),
         Point(f.right - InToMm(CornerCentre), Bottom + InToMm(Inset)))
  }

  function BottomRight(f: Frame): Prim
  {
    Arc(Point(f.right - InToMm(CornerCentre), InToMm(CornerCentre)), InToMm(CornerRadius), 270, 0)
  }

  function TopLeft(f: Frame): Prim
  {
    Arc(Point(InToMm(CornerCentre), f.top - InToMm(CornerCentre)), InToMm(CornerRadius), 90, 180)
  }

  function TopEdge(f: Frame): Prim
  {
    Line(Point(Left + InToMm(CornerCentre), f.top - InToMm(Inset)),
         Point(f.right - InToMm(CornerCentre), f.top - InToMm(Inset)))
  }

  function TopRight(f: Frame): Prim
  {
    Arc(Point(f.right - InToMm(CornerCentre), f.top - InToMm(CornerCentre)), InToMm(CornerRadius), 0, 90)
  }

  /** Corners and straight edges in the order they are drawn. */
  function OutlinePrims(f: Frame): seq<Prim>
  {
    [BottomLeft(f), BottomEdge(f), BottomRight(f), TopLeft(f), TopEdge(f), TopRight(f)]
  }

  function Outline(f: Frame): seq<Entity>
  {
    Tag(OutlinePrims(f), Fascia)
  }

  /** Vertical and horizontal construction lines through the centre. */
  function CentrePrims(f: Frame): seq<Prim>
  {
    [ Line(Point(f.right / 2.0, Bottom - Overhang), Point(f.right / 2.0, f.top + Overhang)),
      Line(Point(Left - Overhang, f.top / 2.0), Point(f.right + Overhang, f.top / 2.0)) ]
  }

  function CentreLines(f: Frame): seq<Entity>
  {
    Tag(CentrePrims(f), FasciaConstruction)
  }

  // Rebates.

  /** The six fascia primitives of the rebate around a left fastener centred
      at height `cy`, reached from height `lastY` on the left edge: lead-in
      line, fillet, line into the pocket, pocket arc, line out of the pocket,
      fillet. */
  function LeftRebate(lastY: real, cy: real): seq<Prim>
  {
    [ Line(Point(LeftEdgeX, lastY), Point(Left + InToMm(Inset), cy - InToMm(FilletOffset))),
      Arc(Point(Left + InToMm(CornerCentre), cy - InToMm(FilletOffset)), InToMm(CornerRadius), 90, 180),
      Line(Point(Left + InToMm(CornerCentre), cy - InToMm(PocketRadius)),
           Point(Left + InToMm(HoleInset), cy - InToMm(PocketRadius))),
      Arc(Point(InToMm(HoleInset), cy), InToMm(PocketRadius), 270, 90),
      Line(Point(Left + InToMm(CornerCentre), cy + InToMm(PocketRadius)),
           Point(Left + InToMm(HoleInset), cy + InToMm(PocketRadius))),
      Arc(Point(Left + InToMm(CornerCentre), cy + InToMm(FilletOffset)), InToMm(CornerRadius), 180, 270) ]
  }

  /** The same rebate for a right fastener, written out for the right edge. */
  function RightRebate(lastY: real, cy: real, f: Frame): seq<Prim>
  {
    [ Line(Point(RightEdgeX(f), lastY), Point(f.right - InToMm(Inset), cy - InToMm(FilletOffset))),
      Arc(Point(f.right - InToMm(CornerCentre), cy - InToMm(FilletOffset)), InToMm(CornerRadius), 0, 90),
      Line(Point(f.right - InToMm(CornerCentre), cy - InToMm(PocketRadius)),
           Point(f.right - InToMm(HoleInset), cy - InToMm(PocketRadius))),
      Arc(Point(f.right - InToMm(HoleInset), cy), InToMm(PocketRadius), 90, 270),
      Line(Point(f.right - InToMm(CornerCentre), cy + InToMm(PocketRadius)),
           Point(f.right - InToMm(HoleInset), cy + InToMm(PocketRadius))),
      Arc(Point(f.right - InToMm(CornerCentre), cy + InToMm(FilletOffset)), InToMm(CornerRadius), 270, 0) ]
  }

  /** Height at which a rebate around a fastener centred at `cy` rejoins the
      edge. */
  function ExitY(cy: real): real
  {
    cy + InToMm(FilletOffset)
  }

  // Side walks.

  /** What one fastener adds to a side: its construction line and its
      rebate. */
  function LeftStep(lastY: real, cy: real, f: Frame): seq<Entity>
  {
    [Entity(Line(Point(Left - Overhang, cy), Point(f.right / 2.0, cy)), FasciaConstruction)]
    + Tag(LeftRebate(lastY, cy), Fascia)
  }

  function RightStep(lastY: real, cy: real, f: Frame): seq<Entity>
  {
    [Entity(Line(Point(f.right / 2.0, cy), Point(f.right + Overhang, cy)), FasciaConstruction)]
    + Tag(RightRebate(lastY, cy, f), Fascia)
  }

  /** The left side from height `lastY` upwards: for each fastener a
      construction line and its rebate, then the closing line up to the top
      left corner. */
  function LeftSide(m: seq<int>, lastY: real, f: Frame): seq<Entity>
    decreases |m|
  {
    if |m| == 0 then
      [Entity(Line(Point(LeftEdgeX, lastY), Point(InToMm(Inset), f.top - InToMm(CornerCentre))), Fascia)]
    else
      var cy := HoleY(m[0]);
      LeftStep(lastY, cy, f) + LeftSide(m[1..], ExitY(cy), f)
  }

  /** The right side from height `lastY` upwards. */
  function RightSide(m: seq<int>, lastY: real, f: Frame): seq<Entity>
    decreases |m|
  {
    if |m| == 0 then
      [Entity(Line(Point(RightEdgeX(f), lastY), Point(f.right - InToMm(Inset), f.top - InToMm(CornerCentre))), Fascia)]
    else
      var cy := HoleY(m[0]);
      RightStep(lastY, cy, f) + RightSide(m[1..], ExitY(cy), f)
  }

  /** Height at which both side walks start, just above the bottom corners. */
  const WalkStartY: real := InToMm(CornerCentre)

  function LeftFascia(m: seq<int>, f: Frame): seq<Entity>
  {
    Tag(GuideIfAny(m, InToMm(HoleInset), f), FasciaConstruction) + LeftSide(m, WalkStartY, f)
  }

  function RightFascia(m: seq<int>, f: Frame): seq<Entity>
  {
    Tag(GuideIfAny(m, f.right - InToMm(HoleInset), f), FasciaConstruction) + RightSide(m, WalkStartY, f)
  }

  /** Everything the fascia section of the drawing emits, in order. */
  function Draw(spec: PanelSpec): seq<Entity>
  {
    var f := FrameOf(spec);
    Outline(f) + CentreLines(f) + LeftFascia(spec.leftMount, f) + RightFascia(spec.rightMount, f)
  }

  /** The fascia primitives of each side, bottom to top. */
  function LeftWalk(spec: PanelSpec): seq<Prim>
  {
    OnLayer(LeftSide(spec.leftMount, WalkStartY, FrameOf(spec)), Fascia)
  }

  function RightWalk(spec: PanelSpec): seq<Prim>
  {
    OnLayer(RightSide(spec.rightMount, WalkStartY, FrameOf(spec)), Fascia)
  }

  /** The fascia boundary as one loop: bottom-left corner, bottom edge,
      bottom-right corner, the right walk upwards, top-right corner, top edge,
      top-left corner, and the left walk back down. */
  function Loop(spec: PanelSpec): seq<Prim>
  {
    var f := FrameOf(spec);
    [BottomLeft(f), BottomEdge(f), BottomRight(f)] + RightWalk(spec)
    + [TopRight(f), TopEdge(f), TopLeft(f)] + Reverse(LeftWalk(spec))
  }

  // Continuity of one rebate and of each side walk.

  /** A rebate is entered on the edge 9/32" below the fastener centre and
      left on the edge 9/32" above it; its six primitives chain end to end:
      line, 90 degree fillet, line, 180 degree pocket, line, 90 degree
      fillet. */
  lemma LeftRebateChains(lastY: real, cy: real)
    ensures var r := LeftRebate(lastY, cy);
      && |r| == 6
      && r[0].Line? && r[2].Line? && r[4].Line?
      && r[1].Arc? && Sweep(r[1].startAngle, r[1].endAngle) == 90
      && r[3].Arc? && Sweep(r[3].startAngle, r[3].endAngle) == 180
      && r[5].Arc? && Sweep(r[5].startAngle, r[5].endAngle) == 90
      && r[0].end == Point(LeftEdgeX, cy - InToMm(FilletOffset))
      && Walk(r, Point(LeftEdgeX, lastY)) == Some(Point(LeftEdgeX, ExitY(cy)))
  {
    var r := LeftRebate(lastY, cy);
    var p0 := Point(LeftEdgeX, lastY);
    var p1 := Point(LeftEdgeX, cy - InToMm(FilletOffset));
    var p2 := Point(InToMm(CornerCentre), cy - InToMm(PocketRadius));
    var p3 := Point(InToMm(HoleInset), cy - InToMm(PocketRadius));
    var p4 := Point(InToMm(HoleInset), cy + InToMm(PocketRadius));
    var p5 := Point(InToMm(CornerCentre), cy + InToMm(PocketRadius));
    var p6 := Point(LeftEdgeX, ExitY(cy));
    assert Traverse(r[5], p5) == Some(p6);
    assert Walk(r[5..], p5) == Some(p6);
    assert Traverse(r[4], p4) == Some(p5);
    assert r[4..][1..] == r[5..];
    assert Walk(r[4..], p4) == Some(p6);
    assert Traverse(r[3], p3) == Some(p4);
    assert r[3..][1..] == r[4..];
    assert Walk(r[3..], p3) == Some(p6);
    assert Traverse(r[2], p2) == Some(p3);
    assert r[2..][1..] == r[3..];
    assert Walk(r[2..], p2) == Some(p6);
    assert Traverse(r[1], p1) == Some(p2);
    assert r[1..][1..] == r[2..];
    assert Walk(r[1..], p1) == Some(p6);
    assert Traverse(r[0], p0) == Some(p1);
  }

  /** The primitives a left side puts on layer `l`: per fastener its
      construction line on `fascia_construction` and its rebate on `fascia`,
      then the closing line on `fascia`. */
  lemma LeftSideOnLayer(m: seq<int>, lastY: real, f: Frame, l: Layer)
    ensures |m| == 0 ==>
              OnLayer(LeftSide(m, lastY, f), l)
              == if l == Fascia
                 then [Line(Point(LeftEdgeX, lastY), Point(InToMm(Inset), f.top - InToMm(CornerCentre)))]
                 else []
    ensures |m| > 0 ==>
              OnLayer(LeftSide(m, lastY, f), l)
              == (if l == FasciaConstruction
                  then [Line(Point(Left - Overhang, HoleY(m[0])), Point(f.right / 2.0, HoleY(m[0])))]
                  else [])
                 + (if l == Fascia then LeftRebate(lastY, HoleY(m[0])) else [])
                 + OnLayer(LeftSide(m[1..], ExitY(HoleY(m[0])), f), l)
  {
    if |m| > 0 {
      var cy := HoleY(m[0]);
      var c := [Entity(Line(Point(Left - Overhang, cy), Point(f.right / 2.0, cy)), FasciaConstruction)];
      var t := Tag(LeftRebate(lastY, cy), Fascia);
      var rest := LeftSide(m[1..], ExitY(cy), f);
      OnLayerAppend(c + t, rest, l);
      OnLayerAppend(c, t, l);
      OnLayerTag(LeftRebate(lastY, cy), Fascia, l);
    }
  }

  lemma RightSideOnLayer(m: seq<int>, lastY: real, f: Frame, l: Layer)
    ensures |m| == 0 ==>
              OnLayer(RightSide(m, lastY, f), l)
              == if l == Fascia
                 then [Line(Point(RightEdgeX(f), lastY), Point(f.right - InToMm(Inset), f.top - InToMm(CornerCentre)))]
                 else []
    ensures |m| > 0 ==>
              OnLayer(RightSide(m, lastY, f), l)
              == (if l == FasciaConstruction
                  then [Line(Point(f.right / 2.0, HoleY(m[0])), Point(f.right + Overhang, HoleY(m[0])))]
                  else [])
                 + (if l == Fascia then RightRebate(lastY, HoleY(m[0]), f) else [])
                 + OnLayer(RightSide(m[1..], ExitY(HoleY(m[0])), f), l)
  {
    if |m| > 0 {
      var cy := HoleY(m[0]);
      var c := [Entity(Line(Point(f.right / 2.0, cy), Point(f.right + Overhang, cy)), FasciaConstruction)];
      var t := Tag(RightRebate(lastY, cy, f), Fascia);
      var rest := RightSide(m[1..], ExitY(cy), f);
      OnLayerAppend(c + t, rest, l);
      OnLayerAppend(c, t, l);
      OnLayerTag(RightRebate(lastY, cy, f), Fascia, l);
    }
  }

  /** A left side walk runs continuously from its start on the left edge to
      the start of the top-left corner. */
  lemma {:induction false} LeftSideChains(m: seq<int>, lastY: real, f: Frame)
    ensures Walk(OnLayer(LeftSide(m, lastY, f), Fascia), Point(LeftEdgeX, lastY))
         == Some(Point(LeftEdgeX, f.top - InToMm(CornerCentre)))
    decreases |m|
  {
    LeftSideOnLayer(m, lastY, f, Fascia);
    var goal := Point(LeftEdgeX, f.top - InToMm(CornerCentre));
    if |m| == 0 {
      var ps := OnLayer(LeftSide(m, lastY, f), Fascia);
      assert Traverse(ps[0], Point(LeftEdgeX, lastY)) == Some(goal);
      assert Walk(ps[1..], goal) == Some(goal);
    } else {
      var cy := HoleY(m[0]);
      LeftRebateChains(lastY, cy);
      LeftSideChains(m[1..], ExitY(cy), f);
      assert OnLayer(LeftSide(m, lastY, f), Fascia)
          == LeftRebate(lastY, cy) + OnLayer(LeftSide(m[1..], ExitY(cy), f), Fascia);
      WalkAppend(LeftRebate(lastY, cy), OnLayer(LeftSide(m[1..], ExitY(cy), f), Fascia),
                 Point(LeftEdgeX, lastY), Point(LeftEdgeX, ExitY(cy)));
    }
  }

  /** The pocket of the i-th left rebate, the fourth primitive of its six,
      is the half circle of radius 1/4" about the i-th fastener centre,
      bulging into the fascia. */
  lemma {:induction false} LeftPockets(m: seq<int>, lastY: real, f: Frame, i: nat)
    requires i < |m|
    ensures var ps := OnLayer(LeftSide(m, lastY, f), Fascia);
      6 * i + 3 < |ps|
      && ps[6 * i + 3] == Arc(Point(InToMm(HoleInset), HoleY(m[i])), InToMm(PocketRadius), 270, 90)
    decreases i
  {
    LeftSideOnLayer(m, lastY, f, Fascia);
    var cy := HoleY(m[0]);
    var rest := OnLayer(LeftSide(m[1..], ExitY(cy), f), Fascia);
    assert OnLayer(LeftSide(m, lastY, f), Fascia) == LeftRebate(lastY, cy) + rest;
    if i > 0 {
      LeftPockets(m[1..], ExitY(cy), f, i - 1);
      assert m[1..][i - 1] == m[i];
      assert 6 * i + 3 == 6 + (6 * (i - 1) + 3);
    }
  }

  /** The pocket of the i-th right rebate is the mirrored half circle about
      the i-th right fastener centre. */
  lemma RightPockets(m: seq<int>, lastY: real, f: Frame, i: nat)
    requires i < |m|
    ensures var ps := OnLayer(RightSide(m, lastY, f), Fascia);
      6 * i + 3 < |ps|
      && ps[6 * i + 3] == Arc(Point(f.right - InToMm(HoleInset), HoleY(m[i])), InToMm(PocketRadius), 90, 270)
  {
    LeftPockets(m, lastY, f, i);
    RightWalkMirror(m, lastY, f);
  }

  // Mirror symmetry.

  /** The right rebate is the left rebate reflected in x |-> right - x, arc
      angles and all. */
  lemma RightRebateMirror(lastY: real, cy: real, f: Frame)
    ensures RightRebate(lastY, cy, f) == MirrorSeq(LeftRebate(lastY, cy), f.right)
  {
    var l := LeftRebate(lastY, cy);
    var r := RightRebate(lastY, cy, f);
    var m := MirrorSeq(l, f.right);
    assert r[0] == m[0];
    assert r[1] == m[1];
    assert r[2] == m[2];
    assert r[3] == m[3];
    assert r[4] == m[4];
    assert r[5] == m[5];
  }

  /** The right side walk is the exact mirror image of the left one with the
      same fasteners. */
  lemma {:induction false} RightWalkMirror(m: seq<int>, lastY: real, f: Frame)
    ensures OnLayer(RightSide(m, lastY, f), Fascia) == MirrorSeq(OnLayer(LeftSide(m, lastY, f), Fascia), f.right)
    decreases |m|
  {
    LeftSideOnLayer(m, lastY, f, Fascia);
    RightSideOnLayer(m, lastY, f, Fascia);
    if |m| > 0 {
      var cy := HoleY(m[0]);
      var lrest := OnLayer(LeftSide(m[1..], ExitY(cy), f), Fascia);
      var rrest := OnLayer(RightSide(m[1..], ExitY(cy), f), Fascia);
      RightWalkMirror(m[1..], ExitY(cy), f);
      RightRebateMirror(lastY, cy, f);
      MirrorSeqAppend(LeftRebate(lastY, cy), lrest, f.right);
      assert OnLayer(LeftSide(m, lastY, f), Fascia) == LeftRebate(lastY, cy) + lrest;
      assert OnLayer(RightSide(m, lastY, f), Fascia) == RightRebate(lastY, cy, f) + rrest;
    }
  }

  lemma StepMirror(lastY: real, cy: real, f: Frame)
    ensures MirrorImage(LeftStep(lastY, cy, f), RightStep(lastY, cy, f), f.right)
  {
    var lc := [Entity(Line(Point(Left - Overhang, cy), Point(f.right / 2.0, cy)), FasciaConstruction)];
    var rc := [Entity(Line(Point(f.right / 2.0, cy), Point(f.right + Overhang, cy)), FasciaConstruction)];
    assert MirrorImage(lc, rc, f.right);
    RightRebateMirror(lastY, cy, f);
    MirrorImageTag(LeftRebate(lastY, cy), Fascia, f.right);
    MirrorImageAppend(lc, rc, Tag(LeftRebate(lastY, cy), Fascia), Tag(RightRebate(lastY, cy, f), Fascia), f.right);
  }

  /** The whole right side, construction lines included, is the left side's
      mirror image entity by entity. */
  lemma {:induction false} RightSideMirror(m: seq<int>, lastY: real, f: Frame)
    ensures MirrorImage(LeftSide(m, lastY, f), RightSide(m, lastY, f), f.right)
    decreases |m|
  {
    if |m| > 0 {
      var cy := HoleY(m[0]);
      RightSideMirror(m[1..], ExitY(cy), f);
      StepMirror(lastY, cy, f);
      MirrorImageAppend(LeftStep(lastY, cy, f), RightStep(lastY, cy, f),
                        LeftSide(m[1..], ExitY(cy), f), RightSide(m[1..], ExitY(cy), f), f.right);
    }
  }

  /** A right side walk runs continuously from its start on the right edge to
      the start of the top-right corner. */
  lemma RightSideChains(m: seq<int>, lastY: real, f: Frame)
    ensures Walk(OnLayer(RightSide(m, lastY, f), Fascia), Point(RightEdgeX(f), lastY))
         == Some(Point(RightEdgeX(f), f.top - InToMm(CornerCentre)))
  {
    RightWalkMirror(m, lastY, f);
    LeftSideChains(m, lastY, f);
    WalkMirror(OnLayer(LeftSide(m, lastY, f), Fascia), Point(LeftEdgeX, lastY), f.right);
  }

  /** For the same positions the left walk is in turn the mirror image of the
      right walk; the two have their lines and arcs in the same places, and
      each right arc sweeps as far counter-clockwise as the
      left arc it faces: a quarter turn at every fillet, a half turn at every
      pocket. */
  lemma WalkSweepsMirror(m: seq<int>, lastY: real, f: Frame)
    ensures var lw, rw := OnLayer(LeftSide(m, lastY, f), Fascia), OnLayer(RightSide(m, lastY, f), Fascia);
      && lw == MirrorSeq(rw, f.right)
      && forall i :: 0 <= i < |lw| ==>
           && (rw[i].Arc? <==> lw[i].Arc?)
           && (lw[i].Arc? ==> Sweep(rw[i].startAngle, rw[i].endAngle) == Sweep(lw[i].startAngle, lw[i].endAngle))
  {
    var lw := OnLayer(LeftSide(m, lastY, f), Fascia);
    RightWalkMirror(m, lastY, f);
    forall i | 0 <= i < |lw| {
      MirrorInvolution(lw[i], f.right);
    }
  }

  /** The right half of the outline mirrors the left half, and each straight
      edge is its own mirror image. */
  lemma OutlineMirror(f: Frame)
    ensures BottomRight(f) == MirrorPrim(BottomLeft(f), f.right)
    ensures TopRight(f) == MirrorPrim(TopLeft(f), f.right)
    ensures SameSegment(BottomEdge(f), MirrorPrim(BottomEdge(f), f.right))
    ensures SameSegment(TopEdge(f), MirrorPrim(TopEdge(f), f.right))
    ensures MirrorImage(LeftFascia([], f), RightFascia([], f), f.right)
  {
    var l := LeftFascia([], f);
    var r := RightFascia([], f);
    assert l == LeftSide([], WalkStartY, f);
    assert r == RightSide([], WalkStartY, f);
  }

  /** With the same fasteners on both sides, the right fascia side, guide and
      construction lines included, is the mirror image of the left. */
  lemma FasciaSidesMirror(m: seq<int>, f: Frame)
    ensures MirrorImage(LeftFascia(m, f), RightFascia(m, f), f.right)
  {
    RightSideMirror(m, WalkStartY, f);
    MirrorImageAppend(Tag(GuideIfAny(m, InToMm(HoleInset), f), FasciaConstruction),
                      Tag(GuideIfAny(m, f.right - InToMm(HoleInset), f), FasciaConstruction),
                      LeftSide(m, WalkStartY, f), RightSide(m, WalkStartY, f), f.right);
  }

  // Guides.

  lemma {:induction false} NoGuideInSide(m: seq<int>, lastY: real, f: Frame)
    ensures Entity(Guide(InToMm(HoleInset), f), FasciaConstruction) !in LeftSide(m, lastY, f)
    ensures Entity(Guide(f.right - InToMm(HoleInset), f), FasciaConstruction) !in RightSide(m, lastY, f)
    decreases |m|
  {
    if |m| > 0 {
      var cy := HoleY(m[0]);
      NoGuideInSide(m[1..], ExitY(cy), f);
      var lt := Tag(LeftRebate(lastY, cy), Fascia);
      var rt := Tag(RightRebate(lastY, cy, f), Fascia);
      assert forall i :: 0 <= i < |lt| ==> lt[i].layer == Fascia;
      assert forall i :: 0 <= i < |rt| ==> rt[i].layer == Fascia;
    }
  }

  /** A side's vertical guide on `fascia_construction` is drawn if and only
      if that side has fasteners. */
  lemma FasciaGuides(m: seq<int>, f: Frame)
    ensures Entity(Guide(InToMm(HoleInset), f), FasciaConstruction) in LeftFascia(m, f) <==> |m| > 0
    ensures Entity(Guide(f.right - InToMm(HoleInset), f), FasciaConstruction) in RightFascia(m, f) <==> |m| > 0
  {
    NoGuideInSide(m, WalkStartY, f);
  }

  // Closure of the whole fascia boundary.

  /** A side of the fascia puts its guide, when it has fasteners, on
      `fascia_construction`, and everything else comes from its walk. */
  lemma SidesOnLayer(L: seq<int>, R: seq<int>, f: Frame, l: Layer)
    ensures OnLayer(LeftFascia(L, f), l)
         == (if l == FasciaConstruction then GuideIfAny(L, InToMm(HoleInset), f) else [])
            + OnLayer(LeftSide(L, WalkStartY, f), l)
    ensures OnLayer(RightFascia(R, f), l)
         == (if l == FasciaConstruction then GuideIfAny(R, f.right - InToMm(HoleInset), f) else [])
            + OnLayer(RightSide(R, WalkStartY, f), l)
  {
    OnLayerTagAppend(GuideIfAny(L, InToMm(HoleInset), f), FasciaConstruction, LeftSide(L, WalkStartY, f), l);
    OnLayerTagAppend(GuideIfAny(R, f.right - InToMm(HoleInset), f), FasciaConstruction, RightSide(R, WalkStartY, f), l);
  }

  /** The fascia section of the drawing, layer by layer: the outline and
      centre lines, then each side. */
  lemma DrawOnLayer(spec: PanelSpec, l: Layer)
    ensures OnLayer(Draw(spec), l)
         == (if l == Fascia then OutlinePrims(FrameOf(spec)) else [])
            + (if l == FasciaConstruction then CentrePrims(FrameOf(spec)) else [])
            + OnLayer(LeftFascia(spec.leftMount, FrameOf(spec)), l)
            + OnLayer(RightFascia(spec.rightMount, FrameOf(spec)), l)
  {
    var f := FrameOf(spec);
    var o, c := Outline(f), CentreLines(f);
    var lf, rf := LeftFascia(spec.leftMount, f), RightFascia(spec.rightMount, f);
    assert Draw(spec) == o + c + lf + rf;
    OnLayerAppend(o + c + lf, rf, l);
    OnLayerAppend(o + c, lf, l);
    OnLayerAppend(o, c, l);
    OnLayerTag(OutlinePrims(f), Fascia, l);
    OnLayerTag(CentrePrims(f), FasciaConstruction, l);
  }

  /** The fascia primitives the drawing emits are the outline and the two
      side walks, and nothing else. */
  lemma FasciaPrims(spec: PanelSpec)
    ensures OnLayer(Draw(spec), Fascia) == OutlinePrims(FrameOf(spec)) + LeftWalk(spec) + RightWalk(spec)
  {
    DrawOnLayer(spec, Fascia);
    SidesOnLayer(spec.leftMount, spec.rightMount, FrameOf(spec), Fascia);
  }

  /** Bottom-left corner, bottom edge and bottom-right corner lead from the
      start of the left walk to the start of the right walk. */
  lemma BottomChain(f: Frame)
    ensures Walk([BottomLeft(f), BottomEdge(f), BottomRight(f)], Point(LeftEdgeX, WalkStartY))
         == Some(Point(RightEdgeX(f), WalkStartY))
    ensures BottomEdge(f).start.y == BottomEdge(f).end.y == InToMm(Inset)
  {
    var a := [BottomLeft(f), BottomEdge(f), BottomRight(f)];
    var s := Point(LeftEdgeX, WalkStartY);
    var b1 := Point(InToMm(CornerCentre), InToMm(Inset));
    var b2 := Point(f.right - InToMm(CornerCentre), InToMm(Inset));
    var r0 := Point(RightEdgeX(f), WalkStartY);
    assert Traverse(a[2], b2) == Some(r0);
    assert Walk(a[2..], b2) == Some(r0);
    assert Traverse(a[1], b1) == Some(b2);
    assert a[1..][1..] == a[2..];
    assert Walk(a[1..], b1) == Some(r0);
    assert Traverse(a[0], s) == Some(b1);
  }

  /** Top-right corner, top edge (run backwards) and top-left corner lead
      from the end of the right walk to the end of the left walk. */
  lemma TopChain(f: Frame)
    ensures Walk([TopRight(f), TopEdge(f), TopLeft(f)], Point(RightEdgeX(f), f.top - InToMm(CornerCentre)))
         == Some(Point(LeftEdgeX, f.top - InToMm(CornerCentre)))
    ensures TopEdge(f).start.y == TopEdge(f).end.y == f.top - InToMm(Inset)
  {
    var b := [TopRight(f), TopEdge(f), TopLeft(f)];
    var rt := Point(RightEdgeX(f), f.top - InToMm(CornerCentre));
    var t2 := Point(f.right - InToMm(CornerCentre), f.top - InToMm(Inset));
    var t1 := Point(InToMm(CornerCentre), f.top - InToMm(Inset));
    var lt := Point(LeftEdgeX, f.top - InToMm(CornerCentre));
    assert Traverse(b[2], t1) == Some(lt);
    assert Walk(b[2..], t1) == Some(lt);
    assert Traverse(b[1], t2) == Some(t1);
    assert b[1..][1..] == b[2..];
    assert Walk(b[1..], t2) == Some(lt);
    assert Traverse(b[0], rt) == Some(t2);
  }

  /** The fascia boundary is one closed loop through the start of the left
      walk: every primitive leaves off where the next one starts, whichever
      way round each arc is drawn. */
  lemma LoopClosed(spec: PanelSpec)
    ensures ClosedLoop(Loop(spec), Point(LeftEdgeX, WalkStartY))
  {
    var f := FrameOf(spec);
    var a := [BottomLeft(f), BottomEdge(f), BottomRight(f)];
    var b := [TopRight(f), TopEdge(f), TopLeft(f)];
    var rw, lw := RightWalk(spec), LeftWalk(spec);
    var s := Point(LeftEdgeX, WalkStartY);
    var r0 := Point(RightEdgeX(f), WalkStartY);
    var rt := Point(RightEdgeX(f), f.top - InToMm(CornerCentre));
    var lt := Point(LeftEdgeX, f.top - InToMm(CornerCentre));
    BottomChain(f);
    RightSideChains(spec.rightMount, WalkStartY, f);
    TopChain(f);
    LeftSideChains(spec.leftMount, WalkStartY, f);
    WalkReverse(lw, s, lt);
    WalkAppend(a, rw, s, r0);
    WalkAppend(a + rw, b, s, rt);
    WalkAppend(a + rw + b, Reverse(lw), s, lt);
  }

  /** Reordering: a ring built from the six outline pieces and both walks
      holds the same elements as the pieces listed outline first. */
  lemma RingReorder<T>(x0: T, x1: T, x2: T, x3: T, x4: T, x5: T, lw: seq<T>, rw: seq<T>)
    ensures multiset([x0, x1, x2] + rw + [x5, x4, x3] + Reverse(lw))
         == multiset([x0, x1, x2, x3, x4, x5] + lw + rw)
  {
    ReverseMultiset(lw);
  }

  /** The loop is made of exactly the fascia primitives the drawing emits,
      each once. */
  lemma LoopIsFascia(spec: PanelSpec)
    ensures multiset(Loop(spec)) == multiset(OnLayer(Draw(spec), Fascia))
  {
    var f := FrameOf(spec);
    FasciaPrims(spec);
    RingReorder(BottomLeft(f), BottomEdge(f), BottomRight(f), TopLeft(f), TopEdge(f), TopRight(f),
                LeftWalk(spec), RightWalk(spec));
  }
}

=== FILE: geometry.dfy ===
/** Plane geometry of the panel drawing: points in exact millimetres, the
    three DXF primitives the drawing uses, the layers they are put on, the
    walk along a chain of primitives that share endpoints, and the mirror
    image of a primitive in a vertical axis. */
module Geometry {

  datatype Option<T> = None | Some(value: T)

  /** Millimetres per inch. */
  const MmPerInch: real := 25.4

  /** Converts inches to millimetres, the unit of every coordinate. */
  function InToMm(inches: real): real
  {
    inches * MmPerInch
  }

  /** Converts millimetres back to inches. */
  function MmToIn(mm: real): real
  {
    mm / MmPerInch
  }

  /** The conversion is exact in both directions, is additive and keeps order. */
  lemma InToMmRoundTrip(inches: real, mm: real)
    ensures MmToIn(InToMm(inches)) == inches
    ensures InToMm(MmToIn(mm)) == mm
    ensures InToMm(inches) + InToMm(MmToIn(mm)) == InToMm(inches + MmToIn(mm))
    ensures inches <= MmToIn(mm) <==> InToMm(inches) <= mm
  {
  }

  datatype Point = Point(x: real, y: real)

  /** The six layers of the drawing. */
  datatype Layer =
    | Plate
    | PlateConstruction
    | Fascia
    | FasciaConstruction
    | Decal
    | DecalConstruction

  /** A right angle in degrees, counter-clockwise from the positive x axis.
      Every arc of the drawing starts and ends at one of these. */
  type Angle = d: int | 0 <= d < 360 && d % 90 == 0

  /** A DXF primitive. An arc runs counter-clockwise from `startAngle` to
      `endAngle`. */
  datatype Prim =
    | Line(start: Point, end: Point)
    | Arc(center: Point, radius: real, startAngle: Angle, endAngle: Angle)
    | Circle(center: Point, radius: real)

  /** A primitive together with the layer it is drawn on. */
  datatype Entity = Entity(prim: Prim, layer: Layer)

  lemma AngleCases(a: Angle)
    ensures a == 0 || a == 90 || a == 180 || a == 270
  {
  }

  /** The point at angle `deg` on the circle of radius `r` about `c`; exact,
      because only right angles occur. */
  function ArcPoint(c: Point, r: real, deg: Angle): (p: Point)
    ensures (p.x - c.x) * (p.x - c.x) + (p.y - c.y) * (p.y - c.y) == r * r
  {
    AngleCases(deg);
    if deg == 0 then Point(c.x + r, c.y)
    else if deg == 90 then Point(c.x, c.y + r)
    else if deg == 180 then Point(c.x - r, c.y)
    else Point(c.x, c.y - r)
  }

  /** Counter-clockwise sweep in degrees from `a` to `b`. */
  function Sweep(a: Angle, b: Angle): (s: int)
    ensures 0 <= s < 360
    ensures (a + s) % 360 == b
  {
    (b - a) % 360
  }

  /** First endpoint of a line or arc, in DXF order. */
  function Start(p: Prim): Point
    requires !p.Circle?
  {
    match p
    case Line(a, _) => a
    case Arc(c, r, s, _) => ArcPoint(c, r, s)
  }

  /** Last endpoint of a line or arc, in DXF order. */
  function End(p: Prim): Point
    requires !p.Circle?
  {
    match p
    case Line(_, b) => b
    case Arc(c, r, _, e) => ArcPoint(c, r, e)
  }

  /** The point halfway along a line. */
  function Midpoint(p: Prim): Point
    requires p.Line?
  {
    Point((p.start.x + p.end.x) / 2.0, (p.start.y + p.end.y) / 2.0)
  }

  /** Enters `p` at `from` and leaves at its other endpoint. A DXF arc always
      runs counter-clockwise, so a contour may enter it at either end. */
  function Traverse(p: Prim, from: Point): (q: Option<Point>)
    ensures q.Some? <==> !p.Circle? && (from == Start(p) || from == End(p))
    ensures q.Some? ==> (from == Start(p) && q.value == End(p)) || (from == End(p) && q.value == Start(p))
  {
    if p.Circle? then None
    else if from == Start(p) then Some(End(p))
    else if from == End(p) then Some(Start(p))
    else None
  }

  /** Traversal can be undone: leaving `p` at `q` and entering it there again
      leads back to where the first traversal began. */
  lemma TraverseBack(p: Prim, from: Point, q: Point)
    requires Traverse(p, from) == Some(q)
    ensures Traverse(p, q) == Some(from)
  {
  }

  /** Follows `ps` in order from `from`, each primitive entered where the
      previous one was left; None when a primitive does not touch the
      current point. */
  function Walk(ps: seq<Prim>, from: Point): Option<Point>
  {
    if |ps| == 0 then Some(from)
    else match Traverse(ps[0], from)
      case None => None
      case Some(next) => Walk(ps[1..], next)
  }

  /** `ps` is one closed contour through `p`. */
  predicate ClosedLoop(ps: seq<Prim>, p: Point)
  {
    |ps| > 0 && Walk(ps, p) == Some(p)
  }

  lemma WalkCons(p: Prim, ps: seq<Prim>, from: Point, next: Point)
    requires Traverse(p, from) == Some(next)
    ensures Walk([p] + ps, from) == Walk(ps, next)
  {
    assert ([p] + ps)[1..] == ps;
  }

  /** Walking a concatenation walks the first part, then the second part from
      where the first ended. */
  lemma {:induction false} WalkAppend(a: seq<Prim>, b: seq<Prim>, from: Point, mid: Point)
    requires Walk(a, from) == Some(mid)
    ensures Walk(a + b, from) == Walk(b, mid)
    decreases |a|
  {
    if |a| == 0 {
      assert a + b == b;
    } else {
      assert (a + b)[0] == a[0];
      assert (a + b)[1..] == a[1..] + b;
      var next := Traverse(a[0], from).value;
      WalkAppend(a[1..], b, next, mid);
    }
  }

  /** `s` in reverse order. */
  function Reverse<T>(s: seq<T>): (r: seq<T>)
    ensures |r| == |s|
    ensures forall i :: 0 <= i < |s| ==> r[i] == s[|s| - 1 - i]
  {
    if |s| == 0 then [] else Reverse(s[1..]) + [s[0]]
  }

  lemma {:induction false} ReverseMultiset<T>(s: seq<T>)
    ensures multiset(Reverse(s)) == multiset(s)
    decreases |s|
  {
    if |s| > 0 {
      ReverseMultiset(s[1..]);
      assert s == [s[0]] + s[1..];
    }
  }

  /** A chain walked from one end can be walked backwards from the other. */
  lemma {:induction false} WalkReverse(s: seq<Prim>, from: Point, to: Point)
    requires Walk(s, from) == Some(to)
    ensures Walk(Reverse(s), to) == Some(from)
    decreases |s|
  {
    if |s| > 0 {
      var next := Traverse(s[0], from).value;
      WalkReverse(s[1..], next, to);
      assert Reverse(s) == Reverse(s[1..]) + [s[0]];
      WalkAppend(Reverse(s[1..]), [s[0]], to, next);
      TraverseBack(s[0], from, next);
      WalkCons(s[0], [], next, from);
      assert [s[0]] + [] == [s[0]];
    }
  }

  /** The primitives of `es` drawn on layer `l`, in order. */
  function OnLayer(es: seq<Entity>, l: Layer): (ps: seq<Prim>)
    ensures |ps| <= |es|
  {
    if |es| == 0 then []
    else (if es[0].layer == l then [es[0].prim] else []) + OnLayer(es[1..], l)
  }

  lemma {:induction false} OnLayerAppend(a: seq<Entity>, b: seq<Entity>, l: Layer)
    ensures OnLayer(a + b, l) == OnLayer(a, l) + OnLayer(b, l)
    decreases |a|
  {
    if |a| == 0 {
      assert a + b == b;
    } else {
      assert (a + b)[0] == a[0];
      assert (a + b)[1..] == a[1..] + b;
      OnLayerAppend(a[1..], b, l);
      var x, y, z := OnLayer(a[1..], l), OnLayer(b, l), OnLayer(a[1..] + b, l);
      if a[0].layer == l {
        var h := [a[0].prim];
        assert OnLayer(a + b, l) == h + z;
        assert OnLayer(a, l) == h + x;
        assert h + (x + y) == (h + x) + y;
      } else {
        assert OnLayer(a + b, l) == [] + z;
        assert OnLayer(a, l) == [] + x;
        assert [] + z == z && [] + x == x;
      }
    }
  }

  lemma OnLayerPair(e0: Entity, e1: Entity, rest: seq<Entity>, l: Layer)
    ensures OnLayer([e0, e1] + rest, l)
         == (if e0.layer == l then [e0.prim] else []) + (if e1.layer == l then [e1.prim] else [])
            + OnLayer(rest, l)
  {
    assert [e0, e1] + rest == [e0] + ([e1] + rest);
    OnLayerAppend([e0], [e1] + rest, l);
    OnLayerAppend([e1], rest, l);
    assert ([e0] + ([e1] + rest))[1..] == [e1] + rest;
  }

  /** Puts every primitive of `ps` on layer `l`. */
  function Tag(ps: seq<Prim>, l: Layer): (es: seq<Entity>)
    ensures |es| == |ps|
    ensures forall i :: 0 <= i < |ps| ==> es[i] == Entity(ps[i], l)
  {
    if |ps| == 0 then [] else [Entity(ps[0], l)] + Tag(ps[1..], l)
  }

  /** Tagging and then selecting a layer gives back the primitives on that
      layer and nothing on any other. */
  lemma {:induction false} OnLayerTag(ps: seq<Prim>, l: Layer, k: Layer)
    ensures OnLayer(Tag(ps, l), k) == if l == k then ps else []
    decreases |ps|
  {
    if |ps| > 0 {
      var t := Tag(ps[1..], l);
      OnLayerTag(ps[1..], l, k);
      assert Tag(ps, l) == [Entity(ps[0], l)] + t;
      assert Tag(ps, l)[0] == Entity(ps[0], l);
      assert Tag(ps, l)[1..] == t;
      if l == k {
        assert OnLayer(Tag(ps, l), k) == [ps[0]] + ps[1..];
        assert [ps[0]] + ps[1..] == ps;
      } else {
        assert OnLayer(Tag(ps, l), k) == [] + [];
      }
    }
  }

  /** Selecting a layer from tagged primitives followed by other entities. */
  lemma OnLayerTagAppend(ps: seq<Prim>, l: Layer, rest: seq<Entity>, k: Layer)
    ensures OnLayer(Tag(ps, l) + rest, k) == (if l == k then ps else []) + OnLayer(rest, k)
  {
    OnLayerAppend(Tag(ps, l), rest, k);
    OnLayerTag(ps, l, k);
  }

  // Mirror image in the vertical axis x = width / 2, that is x |-> width - x.

  function MirrorPoint(p: Point, width: real): (q: Point)
    ensures q.y == p.y
    ensures (p.x + q.x) / 2.0 == width / 2.0
  {
    Point(width - p.x, p.y)
  }

  /** Reflecting an angle in the y axis: theta |-> 180 - theta (mod 360). */
  function MirrorAngle(a: Angle): (b: Angle)
    ensures (a + b) % 360 == 180
  {
    if a <= 180 then 180 - a else 540 - a
  }

  /** Reflection reverses orientation, so a mirrored arc runs from the image
      of the old end angle to the image of the old start angle. */
  function MirrorPrim(p: Prim, width: real): Prim
  {
    match p
    case Line(a, b) => Line(MirrorPoint(a, width), MirrorPoint(b, width))
    case Arc(c, r, s, e) => Arc(MirrorPoint(c, width), r, MirrorAngle(e), MirrorAngle(s))
    case Circle(c, r) => Circle(MirrorPoint(c, width), r)
  }

  function MirrorSeq(ps: seq<Prim>, width: real): (qs: seq<Prim>)
    ensures |qs| == |ps|
    ensures forall i :: 0 <= i < |ps| ==> qs[i] == MirrorPrim(ps[i], width)
  {
    if |ps| == 0 then [] else [MirrorPrim(ps[0], width)] + MirrorSeq(ps[1..], width)
  }

  lemma MirrorSeqAppend(a: seq<Prim>, b: seq<Prim>, width: real)
    ensures MirrorSeq(a + b, width) == MirrorSeq(a, width) + MirrorSeq(b, width)
  {
  }

  function MirrorOption(q: Option<Point>, width: real): Option<Point>
  {
    match q
    case None => None
    case Some(p) => Some(MirrorPoint(p, width))
  }

  /** Mirroring twice is the identity, and a mirrored arc sweeps as far as
      the original. */
  lemma MirrorInvolution(p: Prim, width: real)
    ensures MirrorPrim(MirrorPrim(p, width), width) == p
    ensures p.Arc? ==> Sweep(MirrorPrim(p, width).startAngle, MirrorPrim(p, width).endAngle)
                       == Sweep(p.startAngle, p.endAngle)
  {
    if p.Arc? {
      AngleCases(p.startAngle);
      AngleCases(p.endAngle);
    }
  }

  /** The mirror image of a point on a circle is the point at the mirrored
      angle on the mirrored circle. */
  lemma ArcPointMirror(c: Point, r: real, a: Angle, width: real)
    ensures MirrorPoint(ArcPoint(c, r, a), width) == ArcPoint(MirrorPoint(c, width), r, MirrorAngle(a))
  {
    AngleCases(a);
  }

  /** Mirroring a primitive mirrors its pair of endpoints. */
  lemma EndsMirror(p: Prim, width: real)
    requires !p.Circle?
    ensures p.Line? ==>
              (Start(MirrorPrim(p, width)) == MirrorPoint(Start(p), width)
               && End(MirrorPrim(p, width)) == MirrorPoint(End(p), width))
    ensures p.Arc? ==>
              (Start(MirrorPrim(p, width)) == MirrorPoint(End(p), width)
               && End(MirrorPrim(p, width)) == MirrorPoint(Start(p), width))
  {
    if p.Arc? {
      ArcPointMirror(p.center, p.radius, p.startAngle, width);
      ArcPointMirror(p.center, p.radius, p.endAngle, width);
    }
  }

  lemma TraverseMirror(p: Prim, from: Point, width: real)
    ensures Traverse(MirrorPrim(p, width), MirrorPoint(from, width))
         == MirrorOption(Traverse(p, from), width)
  {
    if !p.Circle? {
      EndsMirror(p, width);
    }
  }

  /** Walking the mirror image of a chain from the mirror image of a point
      ends at the mirror image of where the original walk ends. */
  lemma {:induction false} WalkMirror(ps: seq<Prim>, from: Point, width: real)
    ensures Walk(MirrorSeq(ps, width), MirrorPoint(from, width)) == MirrorOption(Walk(ps, from), width)
    decreases |ps|
  {
    if |ps| > 0 {
      var m := MirrorSeq(ps, width);
      assert m[1..] == MirrorSeq(ps[1..], width);
      TraverseMirror(ps[0], from, width);
      match Traverse(ps[0], from)
      case None =>
      case Some(next) =>
        WalkMirror(ps[1..], next, width);
    }
  }

  /** Same primitive, except that a line may run the other way. */
  predicate SameSegment(p: Prim, q: Prim)
  {
    p == q || (p.Line? && q.Line? && p.start == q.end && p.end == q.start)
  }

  /** `b` is `a` reflected in x |-> width - x, entity by entity, on the same
      layers; construction lines may be drawn in the opposite direction. */
  predicate MirrorImage(a: seq<Entity>, b: seq<Entity>, width: real)
  {
    && |a| == |b|
    && forall i :: 0 <= i < |a| ==>
         b[i].layer == a[i].layer && SameSegment(b[i].prim, MirrorPrim(a[i].prim, width))
  }

  lemma MirrorImageAppend(a1: seq<Entity>, b1: seq<Entity>, a2: seq<Entity>, b2: seq<Entity>, width: real)
    requires MirrorImage(a1, b1, width)
    requires MirrorImage(a2, b2, width)
    ensures MirrorImage(a1 + a2, b1 + b2, width)
  {
    var a, b := a1 + a2, b1 + b2;
    forall i | 0 <= i < |a|
      ensures b[i].layer == a[i].layer && SameSegment(b[i].prim, MirrorPrim(a[i].prim, width))
    {
      if i < |a1| {
        assert a[i] == a1[i] && b[i] == b1[i];
      } else {
        assert a[i] == a2[i - |a1|] && b[i] == b2[i - |b1|];
      }
    }
  }

  /** Tagging commutes with mirroring. */
  lemma MirrorImageTag(ps: seq<Prim>, l: Layer, width: real)
    ensures MirrorImage(Tag(ps, l), Tag(MirrorSeq(ps, width), l), width)
  {
  }
}

=== FILE: panel.dfy ===
/** The whole drawing: plate, fascia and the decal centre line, in the order
    the script emits them, and what can be said of it as a whole. */
module Panel {
  import opened Geometry
  import opened Dimensions
  import PlateLayout
  import FasciaContour
  import Clearance

  /** Drop of the panel-name centre line below the top edge (inches). */
  const DecalDrop: real := 13.0 / 64.0

  function DecalLine(f: Frame): Prim
  {
    Line(Point(Left - Overhang, f.top - InToMm(DecalDrop)), Point(f.right + Overhang, f.top - InToMm(DecalDrop)))
  }

  /** Every primitive of the drawing with its layer, in emission order. */
  function Generate(spec: PanelSpec): seq<Entity>
  {
    PlateLayout.Draw(spec) + FasciaContour.Draw(spec) + Tag([DecalLine(FrameOf(spec))], DecalConstruction)
  }

  /** 1 when a side has fasteners and so gets a vertical guide, else 0. */
  function Guided(m: seq<int>): nat
  {
    if |m| > 0 then 1 else 0
  }

  lemma GenerateOnLayer(spec: PanelSpec, l: Layer)
    ensures OnLayer(Generate(spec), l)
         == OnLayer(PlateLayout.Draw(spec), l) + OnLayer(FasciaContour.Draw(spec), l)
            + (if l == DecalConstruction then [DecalLine(FrameOf(spec))] else [])
  {
    var d := Tag([DecalLine(FrameOf(spec))], DecalConstruction);
    OnLayerAppend(PlateLayout.Draw(spec) + FasciaContour.Draw(spec), d, l);
    OnLayerAppend(PlateLayout.Draw(spec), FasciaContour.Draw(spec), l);
    OnLayerTag([DecalLine(FrameOf(spec))], DecalConstruction, l);
  }

  lemma PlateCounts(spec: PanelSpec, l: Layer)
    ensures |OnLayer(PlateLayout.Draw(spec), l)|
         == if l == Plate then 4 + |spec.leftMount| + |spec.rightMount|
            else if l == PlateConstruction
            then Guided(spec.leftMount) + |spec.leftMount| + Guided(spec.rightMount) + |spec.rightMount|
            else 0
  {
    var f := FrameOf(spec);
    var L, R := spec.leftMount, spec.rightMount;
    var o, lp, rp := PlateLayout.Outline(f), PlateLayout.LeftPlate(L, f), PlateLayout.RightPlate(R, f);
    assert PlateLayout.Draw(spec) == o + lp + rp;
    OnLayerAppend(o + lp, rp, l);
    OnLayerAppend(o, lp, l);
    OnLayerTag(PlateLayout.OutlineLines(f), Plate, l);
    PlateSideCounts(L, f, l);
    PlateSideCounts(R, f, l);
  }

  /** A side of the plate section: its guide, when it has fasteners, and one
      construction line per fastener on `plate_construction`; one hole per
      fastener on `plate`. */
  lemma PlateSideCounts(m: seq<int>, f: Frame, l: Layer)
    ensures |OnLayer(PlateLayout.LeftPlate(m, f), l)|
         == if l == Plate then |m| else if l == PlateConstruction then Guided(m) + |m| else 0
    ensures |OnLayer(PlateLayout.RightPlate(m, f), l)|
         == if l == Plate then |m| else if l == PlateConstruction then Guided(m) + |m| else 0
  {
    var gl, gr := GuideIfAny(m, InToMm(HoleInset), f), GuideIfAny(m, f.right - InToMm(HoleInset), f);
    OnLayerTagAppend(gl, PlateConstruction, PlateLayout.LeftHoles(m, f), l);
    OnLayerTagAppend(gr, PlateConstruction, PlateLayout.RightHoles(m, f), l);
    PlateLayout.HolesPerLayer(m, f, l);
  }

  /** Per fastener a side walk holds six fascia primitives and one
      construction line, and it always ends with one closing line. */
  lemma {:induction false} SideCounts(m: seq<int>, lastY: real, f: Frame, l: Layer)
    ensures |OnLayer(FasciaContour.LeftSide(m, lastY, f), l)|
         == if l == Fascia then 6 * |m| + 1 else if l == FasciaConstruction then |m| else 0
    ensures |OnLayer(FasciaContour.RightSide(m, lastY, f), l)|
         == if l == Fascia then 6 * |m| + 1 else if l == FasciaConstruction then |m| else 0
    decreases |m|
  {
    FasciaContour.LeftSideOnLayer(m, lastY, f, l);
    FasciaContour.RightSideOnLayer(m, lastY, f, l);
    if |m| > 0 {
      SideCounts(m[1..], FasciaContour.ExitY(HoleY(m[0])), f, l);
    }
  }

  lemma FasciaCounts(spec: PanelSpec, l: Layer)
    ensures |OnLayer(FasciaContour.Draw(spec), l)|
         == if l == Fascia then 6 + 6 * |spec.leftMount| + 1 + 6 * |spec.rightMount| + 1
            else if l == FasciaConstruction
            then 2 + Guided(spec.leftMount) + |spec.leftMount| + Guided(spec.rightMount) + |spec.rightMount|
            else 0
  {
    var f := FrameOf(spec);
    FasciaContour.DrawOnLayer(spec, l);
    FasciaContour.SidesOnLayer(spec.leftMount, spec.rightMount, f, l);
    SideCounts(spec.leftMount, FasciaContour.WalkStartY, f, l);
    SideCounts(spec.rightMount, FasciaContour.WalkStartY, f, l);
  }

  /** How many primitives each layer of the drawing gets: the fascia has 4
      corner arcs and 4 straight lines plus 6 per fastener; every fastener
      adds one hole and one construction line on the plate and one
      construction line on the fascia; a side with fasteners adds a guide on
      both construction layers; there is one decal construction line and
      nothing on the decal layer. */
  lemma LayerCounts(spec: PanelSpec)
    ensures var L, R := |spec.leftMount|, |spec.rightMount|;
      && |OnLayer(Generate(spec), Fascia)| == 8 + 6 * (L + R)
      && |OnLayer(Generate(spec), FasciaConstruction)|
         == 2 + Guided(spec.leftMount) + L + Guided(spec.rightMount) + R
      && |OnLayer(Generate(spec), Plate)| == 4 + L + R
      && |OnLayer(Generate(spec), PlateConstruction)|
         == Guided(spec.leftMount) + L + Guided(spec.rightMount) + R
      && |OnLayer(Generate(spec), DecalConstruction)| == 1
      && |OnLayer(Generate(spec), Decal)| == 0
  {
    LayerCount(spec, Fascia);
    LayerCount(spec, FasciaConstruction);
    LayerCount(spec, Plate);
    LayerCount(spec, PlateConstruction);
    LayerCount(spec, DecalConstruction);
    LayerCount(spec, Decal);
  }

  /** The whole drawing's count on one layer: the plate section's plus the
      fascia section's, plus one on the decal construction layer. */
  lemma LayerCount(spec: PanelSpec, l: Layer)
    ensures |OnLayer(Generate(spec), l)|
         == |OnLayer(PlateLayout.Draw(spec), l)| + |OnLayer(FasciaContour.Draw(spec), l)|
            + (if l == DecalConstruction then 1 else 0)
    ensures |OnLayer(PlateLayout.Draw(spec), l)|
         == if l == Plate then 4 + |spec.leftMount| + |spec.rightMount|
            else if l == PlateConstruction
            then Guided(spec.leftMount) + |spec.leftMount| + Guided(spec.rightMount) + |spec.rightMount|
            else 0
    ensures |OnLayer(FasciaContour.Draw(spec), l)|
         == if l == Fascia then 6 + 6 * |spec.leftMount| + 1 + 6 * |spec.rightMount| + 1
            else if l == FasciaConstruction
            then 2 + Guided(spec.leftMount) + |spec.leftMount| + Guided(spec.rightMount) + |spec.rightMount|
            else 0
  {
    GenerateOnLayer(spec, l);
    PlateCounts(spec, l);
    FasciaCounts(spec, l);
  }

  /** The circles of the drawing are the plate holes: left side first, then
      right, each in list order. */
  lemma PlateHoles(spec: PanelSpec)
    ensures OnLayer(Generate(spec), Plate)
         == PlateLayout.OutlineLines(FrameOf(spec))
            + PlateLayout.HoleRow(spec.leftMount, InToMm(HoleInset))
            + PlateLayout.HoleRow(spec.rightMount, FrameOf(spec).right - InToMm(HoleInset))
  {
    GenerateOnLayer(spec, Plate);
    FasciaCounts(spec, Plate);
    assert OnLayer(FasciaContour.Draw(spec), Plate) == [];
    PlateLayer(spec);
  }

  lemma PlateLayer(spec: PanelSpec)
    ensures OnLayer(PlateLayout.Draw(spec), Plate)
         == PlateLayout.OutlineLines(FrameOf(spec))
            + PlateLayout.HoleRow(spec.leftMount, InToMm(HoleInset))
            + PlateLayout.HoleRow(spec.rightMount, FrameOf(spec).right - InToMm(HoleInset))
  {
    var f := FrameOf(spec);
    var o, lp, rp := PlateLayout.Outline(f), PlateLayout.LeftPlate(spec.leftMount, f), PlateLayout.RightPlate(spec.rightMount, f);
    assert PlateLayout.Draw(spec) == o + lp + rp;
    OnLayerAppend(o + lp, rp, Plate);
    OnLayerAppend(o, lp, Plate);
    PlateLayout.OutlineClosed(f);
    PlateLayout.LeftPlateHoles(spec.leftMount, f);
    PlateLayout.RightPlateHoles(spec.rightMount, f);
  }

  /** Every plate hole sits at the centre of the pocket of the fascia rebate
      cut for it, and the pocket's 1/4" radius clears the hole's 2 mm. */
  lemma PocketsOverHoles(spec: PanelSpec)
    ensures var f, L := FrameOf(spec), spec.leftMount;
      var holes := OnLayer(PlateLayout.LeftPlate(L, f), Plate);
      forall i :: 0 <= i < |L| ==>
        && i < |holes| && holes[i].Circle? && 6 * i + 3 < |FasciaContour.LeftWalk(spec)|
        && FasciaContour.LeftWalk(spec)[6 * i + 3].Arc?
        && FasciaContour.LeftWalk(spec)[6 * i + 3].center == holes[i].center
        && FasciaContour.LeftWalk(spec)[6 * i + 3].radius > holes[i].radius
    ensures var f, R := FrameOf(spec), spec.rightMount;
      var holes := OnLayer(PlateLayout.RightPlate(R, f), Plate);
      forall i :: 0 <= i < |R| ==>
        && i < |holes| && holes[i].Circle? && 6 * i + 3 < |FasciaContour.RightWalk(spec)|
        && FasciaContour.RightWalk(spec)[6 * i + 3].Arc?
        && FasciaContour.RightWalk(spec)[6 * i + 3].center == holes[i].center
        && FasciaContour.RightWalk(spec)[6 * i + 3].radius > holes[i].radius
  {
    var f := FrameOf(spec);
    PlateLayout.LeftPlateHoles(spec.leftMount, f);
    PlateLayout.RightPlateHoles(spec.rightMount, f);
    forall i | 0 <= i < |spec.leftMount|
      ensures 6 * i + 3 < |FasciaContour.LeftWalk(spec)|
           && FasciaContour.LeftWalk(spec)[6 * i + 3]
           == Arc(Point(InToMm(HoleInset), HoleY(spec.leftMount[i])), InToMm(FasciaContour.PocketRadius), 270, 90)
    {
      FasciaContour.LeftPockets(spec.leftMount, FasciaContour.WalkStartY, f, i);
    }
    forall i | 0 <= i < |spec.rightMount|
      ensures 6 * i + 3 < |FasciaContour.RightWalk(spec)|
           && FasciaContour.RightWalk(spec)[6 * i + 3]
           == Arc(Point(f.right - InToMm(HoleInset), HoleY(spec.rightMount[i])), InToMm(FasciaContour.PocketRadius), 90, 270)
    {
      FasciaContour.RightPockets(spec.rightMount, FasciaContour.WalkStartY, f, i);
    }
  }

  /** The fascia and the plate carry the same construction lines for a side
      of fasteners: the side's guide and one horizontal line per fastener,
      so holes and rebates are laid out from one set of lines. */
  lemma SideConstruction(m: seq<int>, lastY: real, f: Frame)
    ensures OnLayer(FasciaContour.LeftSide(m, lastY, f), FasciaConstruction)
         == OnLayer(PlateLayout.LeftHoles(m, f), PlateConstruction)
    ensures OnLayer(FasciaContour.RightSide(m, lastY, f), FasciaConstruction)
         == OnLayer(PlateLayout.RightHoles(m, f), PlateConstruction)
  {
    LeftConstruction(m, lastY, f);
    RightConstruction(m, lastY, f);
  }

  lemma {:induction false} LeftConstruction(m: seq<int>, lastY: real, f: Frame)
    ensures OnLayer(FasciaContour.LeftSide(m, lastY, f), FasciaConstruction)
         == OnLayer(PlateLayout.LeftHoles(m, f), PlateConstruction)
    decreases |m|
  {
    FasciaContour.LeftSideOnLayer(m, lastY, f, FasciaConstruction);
    if |m| > 0 {
      var cy := HoleY(m[0]);
      var ln := [Line(Point(Left - Overhang, cy), Point(f.right / 2.0, cy))];
      var fr := OnLayer(FasciaContour.LeftSide(m[1..], FasciaContour.ExitY(cy), f), FasciaConstruction);
      var pr := OnLayer(PlateLayout.LeftHoles(m[1..], f), PlateConstruction);
      LeftConstruction(m[1..], FasciaContour.ExitY(cy), f);
      PlateLayout.PairOnLayer(cy, f, PlateLayout.LeftHoles(m[1..], f), PlateConstruction);
      assert ln + [] == ln;
      assert OnLayer(FasciaContour.LeftSide(m, lastY, f), FasciaConstruction) == ln + fr;
      assert OnLayer(PlateLayout.LeftHoles(m, f), PlateConstruction) == ln + pr;
    }
  }

  lemma {:induction false} RightConstruction(m: seq<int>, lastY: real, f: Frame)
    ensures OnLayer(FasciaContour.RightSide(m, lastY, f), FasciaConstruction)
         == OnLayer(PlateLayout.RightHoles(m, f), PlateConstruction)
    decreases |m|
  {
    FasciaContour.RightSideOnLayer(m, lastY, f, FasciaConstruction);
    if |m| > 0 {
      var cy := HoleY(m[0]);
      var ln := [Line(Point(f.right / 2.0, cy), Point(f.right + Overhang, cy))];
      var fr := OnLayer(FasciaContour.RightSide(m[1..], FasciaContour.ExitY(cy), f), FasciaConstruction);
      var pr := OnLayer(PlateLayout.RightHoles(m[1..], f), PlateConstruction);
      RightConstruction(m[1..], FasciaContour.ExitY(cy), f);
      PlateLayout.PairOnLayer(cy, f, PlateLayout.RightHoles(m[1..], f), PlateConstruction);
      assert ln + [] == ln;
      assert OnLayer(FasciaContour.RightSide(m, lastY, f), FasciaConstruction) == ln + fr;
      assert OnLayer(PlateLayout.RightHoles(m, f), PlateConstruction) == ln + pr;
    }
  }

  lemma ConstructionAgrees(spec: PanelSpec)
    ensures var f := FrameOf(spec);
      && OnLayer(FasciaContour.LeftFascia(spec.leftMount, f), FasciaConstruction)
         == OnLayer(PlateLayout.LeftPlate(spec.leftMount, f), PlateConstruction)
      && OnLayer(FasciaContour.RightFascia(spec.rightMount, f), FasciaConstruction)
         == OnLayer(PlateLayout.RightPlate(spec.rightMount, f), PlateConstruction)
  {
    var f := FrameOf(spec);
    var L, R := spec.leftMount, spec.rightMount;
    var gl, gr := GuideIfAny(L, InToMm(HoleInset), f), GuideIfAny(R, f.right - InToMm(HoleInset), f);
    FasciaContour.SidesOnLayer(L, R, f, FasciaConstruction);
    SideConstruction(L, FasciaContour.WalkStartY, f);
    SideConstruction(R, FasciaContour.WalkStartY, f);
    OnLayerTagAppend(gl, PlateConstruction, PlateLayout.LeftHoles(L, f), PlateConstruction);
    OnLayerTagAppend(gr, PlateConstruction, PlateLayout.RightHoles(R, f), PlateConstruction);
  }

  /** The centre lines cross the plate vertically and horizontally and are
      both bisected by its centre; the decal line is horizontal, 13/64"
      below the top edge and bisected by the vertical centre line; and each
      of the three is its own mirror image. */
  lemma CentredLines(f: Frame)
    ensures var c, d := FasciaContour.CentrePrims(f), DecalLine(f);
      && |c| == 2 && c[0].Line? && c[1].Line? && d.Line?
      && c[0].start.x == c[0].end.x && c[1].start.y == c[1].end.y && d.start.y == d.end.y
      && Midpoint(c[0]) == Point(f.right / 2.0, f.top / 2.0)
      && Midpoint(c[1]) == Point(f.right / 2.0, f.top / 2.0)
      && Midpoint(d) == Point(f.right / 2.0, f.top - InToMm(DecalDrop))
      && SameSegment(MirrorPrim(c[0], f.right), c[0])
      && SameSegment(MirrorPrim(c[1], f.right), c[1])
      && SameSegment(MirrorPrim(d, f.right), d)
  {
  }

  /** With no fasteners the fascia is a plain rounded rectangle: four
      quarter-circle corners of radius 1/32" and four straight lines. */
  lemma NoFasteners(spec: PanelSpec)
    requires spec.leftMount == [] && spec.rightMount == []
    ensures var ps := OnLayer(Generate(spec), Fascia);
      && |ps| == 8
      && (forall i :: 0 <= i < 8 ==> (ps[i].Arc? <==> i in {0, 2, 3, 5}))
      && (forall i :: 0 <= i < 8 ==> (ps[i].Line? <==> i in {1, 4, 6, 7}))
      && (forall i :: 0 <= i < 8 && ps[i].Arc? ==>
            Sweep(ps[i].startAngle, ps[i].endAngle) == 90 && ps[i].radius == InToMm(FasciaContour.CornerRadius))
    ensures OnLayer(Generate(spec), Plate) == PlateLayout.OutlineLines(FrameOf(spec))
  {
    var f := FrameOf(spec);
    BareFascia(spec);
    var lc := Line(Point(FasciaContour.LeftEdgeX, FasciaContour.WalkStartY),
                   Point(InToMm(FasciaContour.Inset), f.top - InToMm(FasciaContour.CornerCentre)));
    var rc := Line(Point(FasciaContour.RightEdgeX(f), FasciaContour.WalkStartY),
                   Point(f.right - InToMm(FasciaContour.Inset), f.top - InToMm(FasciaContour.CornerCentre)));
    assert OnLayer(Generate(spec), Fascia)
        == [ FasciaContour.BottomLeft(f), FasciaContour.BottomEdge(f), FasciaContour.BottomRight(f),
             FasciaContour.TopLeft(f), FasciaContour.TopEdge(f), FasciaContour.TopRight(f), lc, rc ];
    BarePlate(spec);
  }

  lemma BarePlate(spec: PanelSpec)
    requires spec.leftMount == [] && spec.rightMount == []
    ensures OnLayer(Generate(spec), Plate) == PlateLayout.OutlineLines(FrameOf(spec))
  {
    var f := FrameOf(spec);
    PlateHoles(spec);
    assert PlateLayout.HoleRow(spec.leftMount, InToMm(HoleInset)) == [];
    assert PlateLayout.HoleRow(spec.rightMount, f.right - InToMm(HoleInset)) == [];
    assert PlateLayout.OutlineLines(f) + [] + [] == PlateLayout.OutlineLines(f);
  }

  lemma BareFascia(spec: PanelSpec)
    requires spec.leftMount == [] && spec.rightMount == []
    ensures var f := FrameOf(spec);
      OnLayer(Generate(spec), Fascia)
      == FasciaContour.OutlinePrims(f)
         + [ Line(Point(FasciaContour.LeftEdgeX, FasciaContour.WalkStartY),
                  Point(InToMm(FasciaContour.Inset), f.top - InToMm(FasciaContour.CornerCentre))),
             Line(Point(FasciaContour.RightEdgeX(f), FasciaContour.WalkStartY),
                  Point(f.right - InToMm(FasciaContour.Inset), f.top - InToMm(FasciaContour.CornerCentre))) ]
  {
    FasciaLayerFromContour(spec);
    FasciaContour.FasciaPrims(spec);
    BareWalks(spec);
  }

  /** The plate section and the decal line put nothing on the fascia layer. */
  lemma FasciaLayerFromContour(spec: PanelSpec)
    ensures OnLayer(Generate(spec), Fascia) == OnLayer(FasciaContour.Draw(spec), Fascia)
  {
    var pl, fa := OnLayer(PlateLayout.Draw(spec), Fascia), OnLayer(FasciaContour.Draw(spec), Fascia);
    GenerateOnLayer(spec, Fascia);
    PlateCounts(spec, Fascia);
    assert pl == [];
    assert pl + fa + [] == fa;
  }

  /** Without fasteners each walk is the single straight edge. */
  lemma BareWalks(spec: PanelSpec)
    requires spec.leftMount == [] && spec.rightMount == []
    ensures var f := FrameOf(spec);
      FasciaContour.LeftWalk(spec)
      == [Line(Point(FasciaContour.LeftEdgeX, FasciaContour.WalkStartY),
               Point(InToMm(FasciaContour.Inset), f.top - InToMm(FasciaContour.CornerCentre)))]
    ensures var f := FrameOf(spec);
      FasciaContour.RightWalk(spec)
      == [Line(Point(FasciaContour.RightEdgeX(f), FasciaContour.WalkStartY),
               Point(f.right - InToMm(FasciaContour.Inset), f.top - InToMm(FasciaContour.CornerCentre)))]
  {
    var f := FrameOf(spec);
    FasciaContour.LeftSideOnLayer([], FasciaContour.WalkStartY, f, Fascia);
    FasciaContour.RightSideOnLayer([], FasciaContour.WalkStartY, f, Fascia);
  }

  /** The script's own parameters: a 5.75" by 9-unit panel with fasteners at
      units 1 and 7 on both sides. The plate spans (0,0) to
      (146.05, 85.725) mm, the holes sit at heights 14.2875 and 71.4375 mm,
      each side walk holds two rebates and rises throughout. */
  lemma DefaultPanel()
    ensures FrameOf(DefaultSpec) == Frame(146.05, 85.725)
    ensures var ps := OnLayer(Generate(DefaultSpec), Plate);
      |ps| == 8 && ps[4..]
         == [ Circle(Point(4.7625, 14.2875), 2.0), Circle(Point(4.7625, 71.4375), 2.0),
              Circle(Point(141.2875, 14.2875), 2.0), Circle(Point(141.2875, 71.4375), 2.0) ]
    ensures |FasciaContour.LeftWalk(DefaultSpec)| == 13 && |FasciaContour.RightWalk(DefaultSpec)| == 13
    ensures Clearance.Rises(FasciaContour.LeftWalk(DefaultSpec))
    ensures Clearance.Rises(FasciaContour.RightWalk(DefaultSpec))
  {
    DefaultHoles();
    DefaultWalks();
  }

  lemma DefaultHoles()
    ensures var ps := OnLayer(Generate(DefaultSpec), Plate);
      |ps| == 8 && ps[4..]
         == [ Circle(Point(4.7625, 14.2875), 2.0), Circle(Point(4.7625, 71.4375), 2.0),
              Circle(Point(141.2875, 14.2875), 2.0), Circle(Point(141.2875, 71.4375), 2.0) ]
  {
    DefaultRows();
    WideHoles(DefaultSpec);
  }

  /** A panel 5.75" wide with fasteners at units 1 and 7 on both sides. */
  lemma WideHoles(spec: PanelSpec)
    requires spec.widthInches == 5.75 && spec.leftMount == [1, 7] && spec.rightMount == [1, 7]
    ensures var ps := OnLayer(Generate(spec), Plate);
      |ps| == 8 && ps[4..] == PlateLayout.HoleRow([1, 7], 4.7625) + PlateLayout.HoleRow([1, 7], 141.2875)
  {
    var f := FrameOf(spec);
    assert f.right == 146.05;
    assert InToMm(HoleInset) == 4.7625;
    PlateHoles(spec);
    var ol := PlateLayout.OutlineLines(f);
    var l, r := PlateLayout.HoleRow([1, 7], 4.7625), PlateLayout.HoleRow([1, 7], 141.2875);
    assert OnLayer(Generate(spec), Plate) == ol + l + r;
    assert (ol + l + r)[4..] == l + r;
  }

  /** The default fastener circles, one pair per side. */
  lemma DefaultRows()
    ensures PlateLayout.HoleRow([1, 7], 4.7625)
         == [Circle(Point(4.7625, 14.2875), 2.0), Circle(Point(4.7625, 71.4375), 2.0)]
    ensures PlateLayout.HoleRow([1, 7], 141.2875)
         == [Circle(Point(141.2875, 14.2875), 2.0), Circle(Point(141.2875, 71.4375), 2.0)]
  {
    assert HoleY(1) == 14.2875 && HoleY(7) == 71.4375;
  }

  lemma DefaultWalks()
    ensures |FasciaContour.LeftWalk(DefaultSpec)| == 13 && |FasciaContour.RightWalk(DefaultSpec)| == 13
    ensures Clearance.Rises(FasciaContour.LeftWalk(DefaultSpec))
    ensures Clearance.Rises(FasciaContour.RightWalk(DefaultSpec))
  {
    SideCounts([1, 7], FasciaContour.WalkStartY, FrameOf(DefaultSpec), Fascia);
    Clearance.LeftWalkRises(DefaultSpec);
    Clearance.RightWalkRises(DefaultSpec);
    assert Clearance.Spaced([1, 7]);
  }
}

=== FILE: plate.dfy ===
/** The backing plate: a plain rectangle with one drilled hole, and the
    construction lines that locate it, per fastener. */
module PlateLayout {
  import opened Geometry
  import opened Dimensions

  /** Plate outline, wound bottom, right, top, left. */
  function OutlineLines(f: Frame): seq<Prim>
  {
    [ Line(Point(Left, Bottom), Point(f.right, Bottom)),
      Line(Point(f.right, Bottom), Point(f.right, f.top)),
      Line(Point(f.right, f.top), Point(Left, f.top)),
      Line(Point(Left, f.top), Point(Left, Bottom)) ]
  }

  function Outline(f: Frame): seq<Entity>
  {
    Tag(OutlineLines(f), Plate)
  }

  /** For each left fastener: a construction line from past the left edge to
      the middle of the panel, and the hole. */
  function LeftHoles(m: seq<int>, f: Frame): seq<Entity>
    decreases |m|
  {
    if |m| == 0 then [] else LeftPair(HoleY(m[0]), f) + LeftHoles(m[1..], f)
  }

  /** The construction line and the hole of one left fastener at height `y`. */
  function LeftPair(y: real, f: Frame): seq<Entity>
  {
    [ Entity(Line(Point(Left - Overhang, y), Point(f.right / 2.0, y)), PlateConstruction),
      Entity(Circle(Point(InToMm(HoleInset), y), HoleRadius), Plate) ]
  }

  /** For each right fastener: a construction line from the middle of the
      panel to past the right edge, and the hole. */
  function RightHoles(m: seq<int>, f: Frame): seq<Entity>
    decreases |m|
  {
    if |m| == 0 then [] else RightPair(HoleY(m[0]), f) + RightHoles(m[1..], f)
  }

  /** The construction line and the hole of one right fastener at height `y`. */
  function RightPair(y: real, f: Frame): seq<Entity>
  {
    [ Entity(Line(Point(f.right / 2.0, y), Point(f.right + Overhang, y)), PlateConstruction),
      Entity(Circle(Point(f.right - InToMm(HoleInset), y), HoleRadius), Plate) ]
  }

  function LeftPlate(m: seq<int>, f: Frame): seq<Entity>
  {
    Tag(GuideIfAny(m, InToMm(HoleInset), f), PlateConstruction) + LeftHoles(m, f)
  }

  function RightPlate(m: seq<int>, f: Frame): seq<Entity>
  {
    Tag(GuideIfAny(m, f.right - InToMm(HoleInset), f), PlateConstruction) + RightHoles(m, f)
  }

  /** Everything the plate section of the drawing emits, in order. */
  function Draw(spec: PanelSpec): seq<Entity>
  {
    var f := FrameOf(spec);
    Outline(f) + LeftPlate(spec.leftMount, f) + RightPlate(spec.rightMount, f)
  }

  /** The holes of a side whose centres lie on x = `x`, in list order. */
  function HoleRow(m: seq<int>, x: real): (cs: seq<Prim>)
    ensures |cs| == |m|
  {
    seq(|m|, i requires 0 <= i < |m| => Circle(Point(x, HoleY(m[i])), HoleRadius))
  }

  /** The outline is the rectangle with corners (0,0) and (right, top),
      wound bottom, right, top, left: four lines, each starting where the
      previous one ends and the last ending where the first starts. */
  lemma OutlineChained(f: Frame)
    ensures forall i :: 0 <= i < 4 ==>
              OutlineLines(f)[i].Line? && OutlineLines(f)[i].end == OutlineLines(f)[(i + 1) % 4].start
    ensures OutlineLines(f)[0].start == Point(0.0, 0.0)
    ensures OutlineLines(f)[1].start == Point(f.right, 0.0)
    ensures OutlineLines(f)[2].start == Point(f.right, f.top)
    ensures OutlineLines(f)[3].start == Point(0.0, f.top)
  {
  }

  /** The plate layer of the outline is one closed contour through the
      origin. */
  lemma OutlineClosed(f: Frame)
    ensures OnLayer(Outline(f), Plate) == OutlineLines(f)
    ensures ClosedLoop(OnLayer(Outline(f), Plate), Point(0.0, 0.0))
  {
    var ps := OutlineLines(f);
    OnLayerTag(ps, Plate, Plate);
    var o, a, b, c := Point(0.0, 0.0), Point(f.right, 0.0), Point(f.right, f.top), Point(0.0, f.top);
    assert Traverse(ps[3], c) == Some(o);
    assert Walk(ps[3..], c) == Some(o);
    assert Traverse(ps[2], b) == Some(c);
    assert ps[2..][1..] == ps[3..];
    assert Walk(ps[2..], b) == Some(o);
    assert Traverse(ps[1], a) == Some(b);
    assert ps[1..][1..] == ps[2..];
    assert Walk(ps[1..], a) == Some(o);
    assert Traverse(ps[0], o) == Some(a);
  }

  /** Per layer, a fastener's pair is its construction line on
      `plate_construction` and its hole on `plate`. */
  lemma PairOnLayer(y: real, f: Frame, rest: seq<Entity>, l: Layer)
    ensures OnLayer(LeftPair(y, f) + rest, l)
         == (if l == PlateConstruction then [LeftPair(y, f)[0].prim] else [])
            + (if l == Plate then [LeftPair(y, f)[1].prim] else []) + OnLayer(rest, l)
    ensures OnLayer(RightPair(y, f) + rest, l)
         == (if l == PlateConstruction then [RightPair(y, f)[0].prim] else [])
            + (if l == Plate then [RightPair(y, f)[1].prim] else []) + OnLayer(rest, l)
  {
    OnLayerPair(LeftPair(y, f)[0], LeftPair(y, f)[1], rest, l);
    OnLayerPair(RightPair(y, f)[0], RightPair(y, f)[1], rest, l);
    assert LeftPair(y, f) == [LeftPair(y, f)[0], LeftPair(y, f)[1]];
    assert RightPair(y, f) == [RightPair(y, f)[0], RightPair(y, f)[1]];
  }

  /** Layer by layer, a side contributes one hole per fastener on `plate`, and
      one construction line per fastener plus the guide on
      `plate_construction`. */
  lemma {:induction false} HolesPerLayer(m: seq<int>, f: Frame, l: Layer)
    ensures |OnLayer(LeftHoles(m, f), l)| == if l == Plate || l == PlateConstruction then |m| else 0
    ensures |OnLayer(RightHoles(m, f), l)| == if l == Plate || l == PlateConstruction then |m| else 0
    decreases |m|
  {
    if |m| > 0 {
      HolesPerLayer(m[1..], f, l);
      PairOnLayer(HoleY(m[0]), f, LeftHoles(m[1..], f), l);
      PairOnLayer(HoleY(m[0]), f, RightHoles(m[1..], f), l);
    }
  }

  /** The holes of the left plate are exactly one radius-2 circle per listed
      position, in list order, 3/16" in from the left edge. */
  lemma {:induction false} LeftPlateHoles(m: seq<int>, f: Frame)
    ensures OnLayer(LeftPlate(m, f), Plate) == HoleRow(m, InToMm(HoleInset))
    decreases |m|
  {
    OnLayerAppend(Tag(GuideIfAny(m, InToMm(HoleInset), f), PlateConstruction), LeftHoles(m, f), Plate);
    LeftHolesCircles(m, f);
  }

  lemma HoleRowCons(m: seq<int>, x: real)
    requires |m| > 0
    ensures HoleRow(m, x) == [Circle(Point(x, HoleY(m[0])), HoleRadius)] + HoleRow(m[1..], x)
  {
    var r, t := HoleRow(m, x), HoleRow(m[1..], x);
    forall i | 0 <= i < |m|
      ensures r[i] == ([Circle(Point(x, HoleY(m[0])), HoleRadius)] + t)[i]
    {
      if i > 0 {
        assert m[1..][i - 1] == m[i];
      }
    }
  }

  lemma {:induction false} LeftHolesCircles(m: seq<int>, f: Frame)
    ensures OnLayer(LeftHoles(m, f), Plate) == HoleRow(m, InToMm(HoleInset))
    decreases |m|
  {
    if |m| > 0 {
      LeftHolesCircles(m[1..], f);
      PairOnLayer(HoleY(m[0]), f, LeftHoles(m[1..], f), Plate);
      HoleRowCons(m, InToMm(HoleInset));
    }
  }

  /** The holes of the right plate are exactly one radius-2 circle per listed
      position, in list order, 3/16" in from the right edge. */
  lemma {:induction false} RightPlateHoles(m: seq<int>, f: Frame)
    ensures OnLayer(RightPlate(m, f), Plate) == HoleRow(m, f.right - InToMm(HoleInset))
    decreases |m|
  {
    OnLayerAppend(Tag(GuideIfAny(m, f.right - InToMm(HoleInset), f), PlateConstruction), RightHoles(m, f), Plate);
    RightHolesCircles(m, f);
  }

  lemma {:induction false} RightHolesCircles(m: seq<int>, f: Frame)
    ensures OnLayer(RightHoles(m, f), Plate) == HoleRow(m, f.right - InToMm(HoleInset))
    decreases |m|
  {
    if |m| > 0 {
      RightHolesCircles(m[1..], f);
      PairOnLayer(HoleY(m[0]), f, RightHoles(m[1..], f), Plate);
      HoleRowCons(m, f.right - InToMm(HoleInset));
    }
  }

  /** The horizontal construction lines of a side, one per hole, each at
      the height of its hole and running from `x0` to `x1`. */
  function HoleLines(m: seq<int>, x0: real, x1: real): (ls: seq<Prim>)
    ensures |ls| == |m|
  {
    seq(|m|, i requires 0 <= i < |m| => Line(Point(x0, HoleY(m[i])), Point(x1, HoleY(m[i]))))
  }

  lemma HoleLinesCons(m: seq<int>, x0: real, x1: real)
    requires |m| > 0
    ensures HoleLines(m, x0, x1) == [Line(Point(x0, HoleY(m[0])), Point(x1, HoleY(m[0])))] + HoleLines(m[1..], x0, x1)
  {
    var r, t := HoleLines(m, x0, x1), HoleLines(m[1..], x0, x1);
    forall i | 0 <= i < |m|
      ensures r[i] == ([Line(Point(x0, HoleY(m[0])), Point(x1, HoleY(m[0])))] + t)[i]
    {
      if i > 0 {
        assert m[1..][i - 1] == m[i];
      }
    }
  }

  /** The construction lines of the left holes cross the plate from 10 mm
      past its left edge to its middle, one at the height of each hole. */
  lemma {:induction false} LeftHoleLines(m: seq<int>, f: Frame)
    ensures OnLayer(LeftHoles(m, f), PlateConstruction) == HoleLines(m, Left - Overhang, f.right / 2.0)
    decreases |m|
  {
    if |m| > 0 {
      LeftHoleLines(m[1..], f);
      PairOnLayer(HoleY(m[0]), f, LeftHoles(m[1..], f), PlateConstruction);
      HoleLinesCons(m, Left - Overhang, f.right / 2.0);
    }
  }

  /** Those of the right holes run from the middle to 10 mm past the right
      edge. */
  lemma {:induction false} RightHoleLines(m: seq<int>, f: Frame)
    ensures OnLayer(RightHoles(m, f), PlateConstruction) == HoleLines(m, f.right / 2.0, f.right + Overhang)
    decreases |m|
  {
    if |m| > 0 {
      RightHoleLines(m[1..], f);
      PairOnLayer(HoleY(m[0]), f, RightHoles(m[1..], f), PlateConstruction);
      HoleLinesCons(m, f.right / 2.0, f.right + Overhang);
    }
  }

  /** Each hole is marked by a cross of construction lines: the side's
      vertical guide has the x of every hole centre of that side, and passes
      through the centre unless the position puts it beyond the guide's ends;
      the hole's own horizontal line lies at its height and starts on the
      outer side of it. The line, which stops at the middle of the plate,
      reaches the centre exactly when the plate is at least 3/8" wide. */
  lemma Crosshairs(m: seq<int>, f: Frame)
    ensures var holes, lines := OnLayer(LeftPlate(m, f), Plate), OnLayer(LeftHoles(m, f), PlateConstruction);
      && |holes| == |lines| == |m|
      && forall i :: 0 <= i < |m| ==>
           && holes[i].Circle? && lines[i].Line?
           && lines[i].start.y == lines[i].end.y == holes[i].center.y
           && lines[i].start.x < holes[i].center.x
           && (holes[i].center.x <= lines[i].end.x <==> 2.0 * InToMm(HoleInset) <= f.right)
           && Guide(InToMm(HoleInset), f).start.x == holes[i].center.x
           && (Guide(InToMm(HoleInset), f).start.y <= holes[i].center.y <= Guide(InToMm(HoleInset), f).end.y
               <==> -1 <= m[i] && HoleY(m[i]) <= f.top + Overhang)
    ensures var holes, lines := OnLayer(RightPlate(m, f), Plate), OnLayer(RightHoles(m, f), PlateConstruction);
      && |holes| == |lines| == |m|
      && forall i :: 0 <= i < |m| ==>
           && holes[i].Circle? && lines[i].Line?
           && lines[i].start.y == lines[i].end.y == holes[i].center.y
           && holes[i].center.x < lines[i].end.x
           && (lines[i].start.x <= holes[i].center.x <==> 2.0 * InToMm(HoleInset) <= f.right)
           && Guide(f.right - InToMm(HoleInset), f).start.x == holes[i].center.x
           && (Guide(f.right - InToMm(HoleInset), f).start.y <= holes[i].center.y <= Guide(f.right - InToMm(HoleInset), f).end.y
               <==> -1 <= m[i] && HoleY(m[i]) <= f.top + Overhang)
  {
    LeftPlateHoles(m, f);
    RightPlateHoles(m, f);
    LeftHoleLines(m, f);
    RightHoleLines(m, f);
    forall i | 0 <= i < |m|
      ensures Bottom - Overhang <= HoleY(m[i]) <= f.top + Overhang <==> -1 <= m[i] && HoleY(m[i]) <= f.top + Overhang
    {
      GuideSpan(m[i], InToMm(HoleInset), f);
    }
  }

  /** The left vertical guide is drawn on `plate_construction` if and only if
      the left side has fasteners; likewise on the right. */
  lemma PlateGuides(m: seq<int>, f: Frame)
    ensures Entity(Guide(InToMm(HoleInset), f), PlateConstruction) in LeftPlate(m, f) <==> |m| > 0
    ensures Entity(Guide(f.right - InToMm(HoleInset), f), PlateConstruction) in RightPlate(m, f) <==> |m| > 0
  {
    NoGuideInHoles(m, f);
  }

  lemma {:induction false} NoGuideInHoles(m: seq<int>, f: Frame)
    ensures Entity(Guide(InToMm(HoleInset), f), PlateConstruction) !in LeftHoles(m, f)
    ensures Entity(Guide(f.right - InToMm(HoleInset), f), PlateConstruction) !in RightHoles(m, f)
    decreases |m|
  {
    if |m| > 0 {
      NoGuideInHoles(m[1..], f);
    }
  }

  /** Each side of the plate is the other's mirror image in x |-> right - x. */
  lemma {:induction false} PlateMirror(m: seq<int>, f: Frame)
    ensures MirrorImage(LeftPlate(m, f), RightPlate(m, f), f.right)
  {
    HolesMirror(m, f);
    MirrorImageAppend(Tag(GuideIfAny(m, InToMm(HoleInset), f), PlateConstruction),
                      Tag(GuideIfAny(m, f.right - InToMm(HoleInset), f), PlateConstruction),
                      LeftHoles(m, f), RightHoles(m, f), f.right);
  }

  lemma {:induction false} HolesMirror(m: seq<int>, f: Frame)
    ensures MirrorImage(LeftHoles(m, f), RightHoles(m, f), f.right)
    decreases |m|
  {
    if |m| > 0 {
      HolesMirror(m[1..], f);
      var y := HoleY(m[0]);
      assert MirrorImage(LeftPair(y, f), RightPair(y, f), f.right);
      MirrorImageAppend(LeftPair(y, f), RightPair(y, f), LeftHoles(m[1..], f), RightHoles(m[1..], f), f.right);
    }
  }
}
